=== FILE: README.md ===
# Bilibili popular-video analyzer: analysis pipeline and settings

A Dafny model of the two pieces of logic in the userscript that analyses
Bilibili's popular-video list:

- **The analysis pipeline** (`performAnalysis` in `src/analysis.js`). Each raw
  video record gets its engagement rates (`calculateDerivedMetrics`). Over
  seven fields the pipeline computes the mean, median, population standard
  deviation, minimum and maximum. Videos are grouped per uploader (`up_aggregate`)
  and ordered by video count, then total views. Title words are counted into a
  word-cloud table of at most 50 entries. An AI summary string is picked from
  the configuration and the outcome of the AI request.
- **The settings store** (`src/config.js`). `loadConfig` returns the default
  settings overridden by the stored record. `saveConfig` stores the loaded
  settings overridden by a partial record.

Modules:

| file | module | what it holds |
|---|---|---|
| wrappers.dfy | `Wrappers` | `Option` |
| sorting.dfy | `Sorting` | stable insertion sort by a "may come before" relation (lodash `sortBy`/`orderBy`), sums over sequences, permutation facts |
| metrics.dfy | `Metrics` | raw and derived video records, the per-video rates |
| statistics.dfy | `Statistics` | `descriptive_stats` |
| authors.dfy | `Authors` | `groupBy('author')` as a left fold, then `orderBy` |
| words.dfy | `Words` | the title tokenizer, `countBy`, `orderBy`, `take(50)`: the table the pipeline is meant to build |
| word_rows.dfy | `WordRows` | the same chain as lodash runs it, including its array-like reading of the count object |
| config.dfy | `Config` | defaults, load, save |
| analysis.dfy | `Analysis` | the AI summary and the result bundle |

Counters are unbounded integers. Rates, means and variances are exact reals.
The AI client and the userscript store are not called: the settled outcome of
the AI request is a parameter, and the store is a value (`Option<map>`), with
the JSON round trip taken to be the identity.

## Model

| member | source | states |
|---|---|---|
| Metrics.Derive | src/analysis.js:23-31 | every raw field is kept, including a zero or negative `view`; each rate times the view count gives its counter when `view > 0`, and each rate equals its counter otherwise (the divisor is 1, so there is never a division by zero); the interaction rate is the sum of the three rates |
| Metrics.RateDenominator | src/analysis.js:24 | the divisor of every rate is at least 1, and it is the view count itself whenever that is at least 1 |
| Metrics.RatesNonNegative | src/analysis.js:24-30 | with non-negative like, coin and favourite counters every rate is non-negative, whatever the view count |
| Metrics.DeriveAll | src/analysis.js:43 | `video_details` has the input's length and order, and element i is derived from input element i |
| Metrics.DeriveAllKeepsRaws | src/analysis.js:43 | projecting the raw records back out of `video_details` gives the input list |
| Statistics.Column | src/analysis.js:48 | the column of a field has one value per video, in order |
| Statistics.Minimum | src/analysis.js:53 | the minimum is one of the values and at most every value |
| Statistics.Maximum | src/analysis.js:54 | the maximum is one of the values and at least every value |
| Statistics.Mean | src/analysis.js:50 | the mean times the count is the sum |
| Statistics.SortAscending | src/analysis.js:51 | `_.sortBy` on numbers gives a permutation of the values in ascending order |
| Statistics.Median | src/analysis.js:51 | the median is one of the values |
| Statistics.MedianRank | src/analysis.js:51 | the median is the element at index `floor(n/2)` of the sorted values: at most `floor(n/2)` values lie strictly below it and at most `n-1-floor(n/2)` strictly above it (the upper middle for even n) |
| Statistics.Variance | src/analysis.js:52 | the squared `stdDev` is non-negative and, times the count, equals the sum of squared deviations from the mean (division by n, not n-1) |
| Statistics.VarianceZeroIffConstant | src/analysis.js:52 | the variance is zero exactly when all values are equal |
| Statistics.MeanBounds | src/analysis.js:50-54 | minimum ≤ mean ≤ maximum |
| Statistics.Summarize | src/analysis.js:49-55 | there are no statistics exactly when there are no values; otherwise min, max and median are values, every value lies in [min, max], min ≤ mean ≤ max, min ≤ median ≤ max, and the variance is non-negative |
| Statistics.SummaryFields | src/analysis.js:49-55 | the summary's mean times the count is the sum; its variance times the count is the sum of squared deviations from its mean; its median has at most half of the values strictly on either side |
| Statistics.DescriptiveStats | src/analysis.js:46-57 | one entry for each of the seven fields `view, like, coin, favorite, danmaku, reply, interaction_rate`; the entry of a field is the summary of that field's column, so it is missing exactly when there are no videos and otherwise has the bounds of `Statistics.Summarize` |
| Statistics.DescriptiveStatsOfField | src/analysis.js:46-57 | for a non-empty list, the entry of field m has mean times count equal to the sum of m over the videos, variance times count equal to the sum of squared deviations, minimum, maximum and median among the values of m, and at most half of the values strictly on either side of the median |
| Sorting.Sort | src/analysis.js:68 | the ordering is a permutation of its input, of the same length, sorted by the given total preorder |
| Sorting.SortPreservesSumBy | src/analysis.js:68 | reordering leaves every sum over the rows unchanged |
| Sorting.SortKeepsKeysDistinct | src/analysis.js:68 | reordering keeps distinct keys distinct |
| Sorting.SortMap | src/analysis.js:76-77 | mapping each element to a row and then sorting gives the same list as sorting and then mapping, when the row order agrees with the element order |
| Authors.IndexOfAuthor | src/analysis.js:61 | the position of an author's row, or -1 exactly when the author has no row |
| Authors.AddVideo | src/analysis.js:61 | one step of `groupBy` adds at most one row, afterwards the video's author has a row, and every row of another author is unchanged |
| Authors.AddVideoKeepsGroups | src/analysis.js:61-67 | adding one video to a correct grouping gives a correct grouping of the longer list |
| Authors.GroupByAuthor | src/analysis.js:60-67 | one row per distinct author and no other, each row holding that author's video count, view total and like total, and the counts adding up to the number of videos |
| Authors.AuthorAggregate | src/analysis.js:60-69 | `up_aggregate` has distinct authors, exactly the authors of the input, each with its count and totals, counts summing to the input length, rows ordered non-increasing on (videoCount, totalViews) |
| Authors.PermutationKeepsNames | src/analysis.js:68 | reordering rows keeps the same set of authors |
| Words.IsWordChar | src/analysis.js:73 | a character of the class `[\u4e00-\u9fa5a-zA-Z0-9]`: code point U+4E00 to U+9FA5, a-z, A-Z or 0-9, and nothing else |
| Words.RunLength | src/analysis.js:73 | the length of the longest prefix of word characters |
| Words.TokensShape | src/analysis.js:73 | every token is a non-empty run of word characters; there are no tokens exactly when the title has no word character |
| Words.TokensSplit | src/analysis.js:73 | a character outside the class splits a title: the tokens of `a + [c] + b` are those of `a` followed by those of `b` |
| Words.TokensOfJoin | src/analysis.js:73 | tokenizing runs joined by a separator gives back the runs |
| Words.TokensAreMaximalRuns | src/analysis.js:73 | every token is a maximal run of word characters of its title |
| Words.MaximalRunIsToken | src/analysis.js:73 | every maximal run of word characters of a title is one of its tokens |
| Words.LongTokens | src/analysis.js:74 | the filter keeps exactly the tokens of two or more characters, each as many times as it occurs, and drops every shorter token |
| Words.TitleTokens | src/analysis.js:73-74 | the kept tokens of one title are exactly its tokens of two or more characters |
| Words.TitleWords | src/analysis.js:73-74 | every word handed to `countBy` has at least two characters |
| Words.TitleWordsMembers | src/analysis.js:73-74 | the counted words are exactly the tokens of two or more characters of some title |
| Words.TitleWordsAppend | src/analysis.js:73 | `flatMap` over two lists of videos is the concatenation of the two results |
| Words.OccurrencesAppend | src/analysis.js:73-75 | a word occurs in a concatenation as often as in its two parts together |
| Words.TitleWordsOccurrences | src/analysis.js:73-75 | a word of two or more characters reaches `countBy` once for every time it is a token of a title, summed over the titles; a word of one character never does |
| Words.IndexOfName | src/analysis.js:75 | the position of a word's row, or -1 exactly when the word has no row |
| Words.AddWord | src/analysis.js:75 | one step of `countBy` adds at most one row, afterwards the word has a row, and every row of another word is unchanged |
| Words.AddWordKeepsCounts | src/analysis.js:75 | counting one more word keeps a correct count |
| Words.CountWords | src/analysis.js:75-76 | one row per distinct word and no other, each with its number of occurrences |
| Words.PermutationKeepsCounts | src/analysis.js:77 | reordering a correct count gives a correct count |
| Words.RankedWords | src/analysis.js:75-77 | the count ordered by count, non-increasing |
| Words.CutKeepsBest | src/analysis.js:77-78 | cutting a sorted list keeps part of it, and every element cut off ranks no higher than every element kept |
| Words.TopWords | src/analysis.js:78 | the cut table has at most 50 rows |
| Words.TopWordsRows | src/analysis.js:75-78 | the cut keeps distinct words of the input, each with its exact count, in non-increasing count order |
| Words.TopWordsLeftOut | src/analysis.js:77-78 | a word is cut only from a full table of 50, and occurs no more often than any word kept |
| Words.WordTable | src/analysis.js:72-79 | `word_cloud_data` has at most 50 rows |
| Words.WordTableSpec | src/analysis.js:72-79 | rows have distinct names, each a token of two or more characters of some title with its occurrence count over all titles; rows are in non-increasing count order; a qualifying token left out means the table is full and its count is at most every kept count |
| Words.WordTableCounts | src/analysis.js:72-79 | every row's count is the number of times its word is a token of some title, summed over the titles |
| Words.WordTableEmptyIff | src/analysis.js:72-79 | the table is empty exactly when no title has a run of two or more word characters |
| Words.SkipEmptyTitle | src/analysis.js:73 | a title with no tokens adds no words |
| Words.TitleWithoutRunsContributesNothing | src/analysis.js:73-75 | removing a video whose title has no word character leaves the table unchanged |
| Words.WordTableNamesAreRuns | src/analysis.js:72-79 | every name in the table is a maximal run of word characters of some title |
| WordRows.Numeral | src/analysis.js:76 | the property key an array index reads: a non-empty string of decimal digits without a leading zero |
| WordRows.NumeralValue | src/analysis.js:76 | reading the key back as a decimal number gives the index |
| WordRows.Lookup | src/analysis.js:76 | reading a key of the count object gives `undefined` exactly when the key is not a counted word, and otherwise the count stored for that word |
| WordRows.ArrayLike | src/analysis.js:76 | lodash's `isArrayLike` on the count object: it holds only when some counted word is "length" with a count from 0 to `Number.MAX_SAFE_INTEGER`, and, keys being distinct, whenever there is one |
| WordRows.LookupDistinct | src/analysis.js:76 | with distinct keys, reading a counted word's key gives that word's count |
| WordRows.MapCounts | src/analysis.js:76 | when the count object is not array-like, one row per counted word in key order, named by the word and carrying its count; when it is, exactly `length` rows named by the indexes 0, 1, … in order, row i carrying whatever is stored under the key `String(i)` (`undefined` when that is not a counted word) |
| Words.Cut | src/analysis.js:78 | `take(50)` gives the first at most 50 rows, and the whole list when it has 50 or fewer |
| WordRows.ValueDesc | src/analysis.js:77 | the order of `orderBy(['value'], ['desc'])` on rows: a row with an `undefined` value comes before every row, a row with a number never comes before one with `undefined`, and two numbers come in non-increasing order |
| WordRows.RowsAsWritten | src/analysis.js:76-78 | the rows are drawn from the mapped rows of the count object, as many as there are up to 50, with rows whose value is `undefined` first and then values non-increasing; every row `take(50)` drops ranks no higher than any row kept |
| WordRows.WordTableAsWritten | src/analysis.js:72-79 | `word_cloud_data` as lodash evaluates the chain has at most 50 rows |
| WordRows.RowsWithoutLengthKey | src/analysis.js:76-78 | without the key "length" the rows are the intended ordering and cut of the counts, each row named by its word |
| WordRows.AsWrittenAgreesWithoutLength | src/analysis.js:72-79 | when no title has the token "length", the table as lodash evaluates it is the intended table row for row |
| WordRows.CountsArrayLike | src/analysis.js:75-76 | the count object is array-like exactly when "length" is a counted word, and its length is then the number of times "length" was counted, at least 1 |
| WordRows.RowsWithLengthKey | src/analysis.js:76-78 | an array-like count object with a positive length gives at least one row and only rows named by an index |
| WordRows.LengthTokenLeavesNoWord | src/analysis.js:72-79 | when some title has the token "length", the table is non-empty and no row is named by a word |
| WordRows.LengthTitleExample | src/analysis.js:72-79 | one video titled "length 测试": the intended table is `[("length", 1), ("测试", 1)]`, the table as lodash evaluates it is the single row `{name: 0, value: undefined}` |
| Config.Truthy | src/analysis.js:86 | a missing property and `null` are falsy; a string is truthy exactly when it is non-empty |
| Config.LoadConfig | src/config.js:35-42 | with nothing stored the result is the defaults; otherwise its keys are the default keys plus the stored keys, every stored key has its stored value, and every default key not stored keeps its default value |
| Config.SaveConfig | src/config.js:48-52 | afterwards something is stored; the next load has the keys of the previous load plus those of the partial record, every key of the partial record has its new value, and every other key keeps the value the previous load returned |
| Config.DefaultsWhenNothingStored | src/config.js:23-29 | with nothing stored, the load has exactly the five keys `aiApiUrl` = the placeholder URL, `aiApiKey` = "", `refresh_interval` = 0, `theme` = "auto", `videoLimit` = 20 |
| Config.LoadKeepsDefaultKeys | src/config.js:39 | every default key is present after a load, whatever is stored |
| Config.SaveIdempotent | src/config.js:48-51 | saving the same partial record twice stores the same record as saving it once |
| Config.SaveNothingKeepsLoad | src/config.js:48-51 | saving an empty partial record leaves the loaded settings unchanged |
| Config.StoredDefaultsActLikeNothing | src/config.js:36-41 | saving over a stored copy of the defaults stores the same as saving over an empty store |
| Analysis.AiEnabled | src/analysis.js:86 | the AI is on only when both the key and the URL are set and neither is the empty string; with both set to strings it is on exactly when both are non-empty |
| Analysis.AiSummary | src/analysis.js:85-93 | the fixed "not configured" message when the API key or the URL is falsy; the reply when the request succeeds; otherwise the failure prefix followed by exactly the error message |
| Analysis.FailureSummaryDistinguishable | src/analysis.js:85-92 | a failure summary never equals the "not configured" message, and two failure summaries are equal exactly when their error messages are |
| Analysis.DefaultsDisableAi | src/analysis.js:86 | with the default settings the API key is empty, so the summary is the "not configured" message whatever the request would return |
| Analysis.SavedKeyEnablesAi | src/analysis.js:86 | saving a non-empty key over the defaults turns the AI on, since the default URL is not empty |
| Analysis.PerformAnalysis | src/analysis.js:40-110 | the result holds the derived list (same length, raw records unchanged), statistics for every one of the seven fields (present exactly when the input is non-empty), empty outlier and correlation placeholders, an aggregate whose counts sum to the input length and whose authors are exactly the input's, a word table of at most 50 rows, and the "not configured" message when the AI is off |
| Analysis.BundleFromDetails | src/analysis.js:98-106 | `video_details` is the derived list of the input, with element i carrying raw record i; `ai_summary` is the summary chosen from the settings and the request outcome; the statistics, the aggregate and the word table are computed from `video_details` |
| Analysis.PerformAnalysisAsWritten | src/analysis.js:96 | with the placeholder of line 96 the word table is always empty, while the derived list, the aggregate, the AI summary and the fixed placeholders are what the pipeline computes |
| Analysis.AsWrittenDiffersOnlyInTable | src/analysis.js:72-79 | putting the table of lines 72-79 back into the as-written result gives exactly the intended result, statistics included |
| Analysis.PlaceholderDiscardsTable | src/analysis.js:96 | whenever a title has a run of two or more word characters, the as-written table differs from the table of lines 72-79 |
| Analysis.PlaceholderExample | src/analysis.js:96 | one video titled "测试": the as-written table is empty, the table of lines 72-79 is not |

## Left out

- The square root in `stdDev` (src/analysis.js:52): the model keeps the population variance, which is `stdDev` squared. The root of an exact real is not modelled.
- Floating point: counters are unbounded integers and rates and means are exact reals, so IEEE rounding and overflow to `Infinity` are not modelled.
- Statistics.Summarize: on an empty list lodash gives `NaN` for the mean and standard deviation and `undefined` for the median, minimum and maximum. The model gives `None` for the whole entry.
- Authors.AuthorAggregate: the order among rows that tie on both keys is left open. lodash iterates `groupBy`'s object keys, and JavaScript lists integer-like keys first, in numeric order. The model's grouping uses first-seen order instead. Only the non-increasing order and the row contents are stated.
- Words.WordTableSpec: the order among words with equal counts is left open, for the same reason as for the author aggregate. So is which of the words tied at the 50th count survive `take(50)`. The model keeps the first-seen ones, while lodash lists integer-like keys such as "2024" first. With 51 distinct words that each occur once, the last being "2024", the model cuts "2024" and lodash keeps it. The lemma also describes the table the pipeline is meant to build; for a title token "length" lodash builds another one (see `WordRows` and the findings).
- Words.CountWords: models `countBy` followed by `map` as one row per key. When "length" is among the words, lodash instead reads the count object as an array. That reading is modelled by WordRows.MapCounts, and this member states the intended rows.
- Words.RankedWords: orders the intended rows. The rows lodash orders when "length" is a word are modelled by WordRows.RowsAsWritten.
- Words.TopWordsRows: states the intended rows. For a title token "length" lodash yields index rows instead (WordRows.LengthTokenLeavesNoWord).
- Words.WordTableNamesAreRuns: holds for the intended table. For a title token "length" the rows lodash yields are named by indexes, not words (WordRows.LengthTokenLeavesNoWord).
- Words.WordTableCounts: states the counts of the intended table. For a title token "length" lodash yields index rows whose values are mostly `undefined`, so no such row carries a token count (WordRows.MapCounts).
- Words.TopWordsLeftOut: holds for the intended table. For a title token "length" every word is missing from the rows lodash yields, whether or not 50 rows are present (WordRows.LengthTokenLeavesNoWord).
- WordRows.MapCounts: in the non-array-like case the rows follow first-seen key order, not JavaScript's integer-like-keys-first order (as for the author aggregate).
- WordRows.LengthTokenLeavesNoWord: requires at most `Number.MAX_SAFE_INTEGER` counted words. A JavaScript array holds fewer than 2^32 elements, so every input meets it.
- Words.Tokens carries no contract of its own. Its behaviour is stated by Words.TokensShape, Words.TokensSplit, Words.TokensOfJoin, Words.TokensAreMaximalRuns and Words.MaximalRunIsToken.
- Words.IsWordChar compares characters, while the regular expression (it has no `u` flag) compares UTF-16 code units. Every character of the class is in the Basic Multilingual Plane, and a surrogate half never matches, so both views give the same runs.
- Titles are taken to be strings. A non-string title would make `title.match` throw, and that case is not modelled.
- The AI prompt (src/analysis.js:82-83) is left out. It is only passed to the AI client.
- The AI request (`getAiAnalysis`, src/api.js) is not modelled. Its settled outcome is a parameter. A request that never settles is not modelled.
- The `log` calls are left out.
- The `async`/`await` structure is left out.
- The userscript store (`GM_getValue`/`GM_setValue`) is a value passed in and returned. Serialising to JSON and parsing back is taken to be the identity. A stored value that is not a JSON object, and values that are arrays or objects, are not modelled.
- `deepClone` of the defaults is the identity on immutable values.
- Everything outside `src/analysis.js` and `src/config.js` is not part of this model: the user interface (src/ui.js, src/main.js), the charts (src/charts.js), the network client (src/api.js), the exporter (src/exporter.js), the helpers (src/utils.js), the build script (build.js) and the generated bundle under dist/.
- The `outlier_videos` and `correlation_matrix` entries are the constant empty placeholders of the source.

## Findings

| source | as written | input that shows it | evidently intended | confidence | as-written member | corrected member |
|---|---|---|---|---|---|---|
| src/analysis.js:96 | `const word_cloud_data = []` declares the name a second time in the function that already declared it at line 72. Under the ECMAScript rules a repeated `const` in one scope is an early SyntaxError, so the module does not load. Read as the value the result takes, the placeholder empties the table. | one video titled "测试": the table of lines 72-79 is `[{name: "测试", value: 1}]`, the placeholder gives `[]` | the result's `word_cloud_data` is the table built at lines 72-79; the generated bundle under dist/ has no such line | high; not executed | Analysis.PerformAnalysisAsWritten, Analysis.PlaceholderExample | Analysis.PerformAnalysis, Words.WordTableSpec |
| src/analysis.js:76 | `.map((value, name) => ({ name, value }))` over the object `countBy` returns. lodash treats an object whose `length` property is a valid array length as an array, and "length" becomes such a property as soon as it is a title token. The rows are then named by indexes 0 to count-1, with the values stored under "0", "1", … | one video titled "length 测试": lodash yields `[{name: 0, value: undefined}]` | one row per counted word: `[{name: "length", value: 1}, {name: "测试", value: 1}]` | high; not executed | WordRows.WordTableAsWritten, WordRows.LengthTitleExample | Words.WordTableSpec, WordRows.AsWrittenAgreesWithoutLength |

=== FILE: analysis.dfy ===
/**
 The analysis bundle (`performAnalysis` in src/analysis.js): the derived
 video list, the descriptive statistics, the per-author aggregate, the
 word-frequency table and the AI summary. The AI client is not part of this
 model: its settled outcome is a parameter, consulted only when the AI is
 configured.
 */
module Analysis {
  import opened Wrappers
  import opened Metrics
  import Statistics
  import Sorting
  import Authors
  import Words
  import Config

  /** How the call to the AI client settled: the text it resolved with, or
      the message of the error it rejected with. */
  datatype AiOutcome = Reply(content: string) | Failure(message: string)

  /** The summary when the AI is not configured. */
  const DisabledMessage: string := "AI分析功能未开启或配置错误。"

  /** What precedes the error message when the AI call fails. */
  const FailurePrefix: string := "AI分析请求失败: "

  /** `config.aiApiKey && config.aiApiUrl`. */
  predicate AiEnabled(config: Config.Record): (b: bool)
    ensures b ==> Config.ApiKeyKey in config && Config.ApiUrlKey in config
    ensures b ==> config[Config.ApiKeyKey] != Config.Str("") && config[Config.ApiUrlKey] != Config.Str("")
    ensures
      && Config.ApiKeyKey in config && config[Config.ApiKeyKey].Str?
      && Config.ApiUrlKey in config && config[Config.ApiUrlKey].Str?
      ==> (b <==> config[Config.ApiKeyKey].s != "" && config[Config.ApiUrlKey].s != "")
  {
    Config.Truthy(Config.Get(config, Config.ApiKeyKey)) && Config.Truthy(Config.Get(config, Config.ApiUrlKey))
  }

  /** `ai_summary`: the fixed message when the AI is not configured, the
      reply when the call succeeds, the prefixed error message when it
      fails. */
  function AiSummary(config: Config.Record, outcome: AiOutcome): (s: string)
    ensures !AiEnabled(config) ==> s == DisabledMessage
    ensures AiEnabled(config) && outcome.Reply? ==> s == outcome.content
    ensures AiEnabled(config) && outcome.Failure? ==>
      |s| == |FailurePrefix| + |outcome.message| &&
      s[..|FailurePrefix|] == FailurePrefix && s[|FailurePrefix|..] == outcome.message
  {
    if !AiEnabled(config) then DisabledMessage
    else match outcome
      case Reply(content) => content
      case Failure(message) => FailurePrefix + message
  }

  /** A failure summary never reads as the fixed "not configured" message,
      and two different error messages give two different summaries. */
  lemma FailureSummaryDistinguishable(config: Config.Record, m1: string, m2: string)
    requires AiEnabled(config)
    ensures AiSummary(config, Failure(m1)) != DisabledMessage
    ensures AiSummary(config, Failure(m1)) == AiSummary(config, Failure(m2)) <==> m1 == m2
  {
    var s1 := AiSummary(config, Failure(m1));
    assert s1[4] == FailurePrefix[4] == '请';
    assert DisabledMessage[4] == '功';
    if s1 == AiSummary(config, Failure(m2)) {
      assert m1 == s1[|FailurePrefix|..];
    }
  }

  /** With nothing stored, the API key is the empty string, so the AI is
      off and the summary is the fixed message whatever the client would
      do. */
  lemma DefaultsDisableAi(outcome: AiOutcome)
    ensures !AiEnabled(Config.LoadConfig(None))
    ensures AiSummary(Config.LoadConfig(None), outcome) == DisabledMessage
  {
  }

  /** Saving a non-empty key over the defaults turns the AI on, since the
      default URL is non-empty. */
  lemma SavedKeyEnablesAi(key: string)
    requires key != ""
    ensures AiEnabled(Config.LoadConfig(Config.SaveConfig(None, map[Config.ApiKeyKey := Config.Str(key)])))
  {
  }

  /** The object `performAnalysis` resolves with. `outlierVideos` and
      `correlationMatrix` are fixed empty placeholders. */
  datatype AnalysisResult = AnalysisResult(
    videoDetails: seq<DerivedVideo>,
    descriptiveStats: map<Statistics.Metric, Option<Statistics.FieldStats>>,
    outlierVideos: seq<DerivedVideo>,
    correlationMatrix: map<string, real>,
    upAggregate: seq<Authors.AuthorStats>,
    aiSummary: string,
    wordCloudData: seq<Words.WordEntry>)

  /** `performAnalysis(rawData, config)` with the word table of lines 72-79
      and without the placeholder that redeclares it. */
  function PerformAnalysis(raws: seq<RawVideo>, config: Config.Record, outcome: AiOutcome): (r: AnalysisResult)
    ensures |r.videoDetails| == |raws| && forall i :: 0 <= i < |raws| ==> r.videoDetails[i].raw == raws[i]
    ensures forall m :: m in r.descriptiveStats
    ensures forall m :: m in r.descriptiveStats ==> (r.descriptiveStats[m].Some? <==> |raws| > 0)
    ensures r.outlierVideos == [] && r.correlationMatrix == map[]
    ensures Sorting.SumBy(r.upAggregate, Authors.CountOf) == |raws|
    ensures forall a :: a in Authors.Names(r.upAggregate) <==> a in Authors.VideoAuthors(r.videoDetails)
    ensures |r.wordCloudData| <= Words.WordLimit
    ensures !AiEnabled(config) ==> r.aiSummary == DisabledMessage
  {
    var details := DeriveAll(raws);
    assert forall i :: 0 <= i < |raws| ==> details[i].raw == raws[i];
    var stats := Statistics.DescriptiveStats(details);
    assert forall m :: m in stats ==> (stats[m].Some? <==> |raws| > 0);
    AnalysisResult(
      details,
      stats,
      [],
      map[],
      Authors.AuthorAggregate(details),
      AiSummary(config, outcome),
      Words.WordTable(details))
  }

  /** Every part of the bundle is computed from the derived list alone: the
      statistics, the aggregate and the word table agree with the
      corresponding operations on `videoDetails`. */
  lemma BundleFromDetails(raws: seq<RawVideo>, config: Config.Record, outcome: AiOutcome)
    ensures var r := PerformAnalysis(raws, config, outcome);
      && r.videoDetails == DeriveAll(raws)
      && (forall i :: 0 <= i < |raws| ==> r.videoDetails[i].raw == raws[i])
      && r.aiSummary == AiSummary(config, outcome)
      && r.descriptiveStats == Statistics.DescriptiveStats(r.videoDetails)
      && r.upAggregate == Authors.AuthorAggregate(r.videoDetails)
      && r.wordCloudData == Words.WordTable(r.videoDetails)
  {
  }

  /** The bundle as the source file is written: line 96 declares
      `word_cloud_data` a second time, as an empty placeholder, after the
      table of lines 72-79 has been built. Read as the value the result
      takes, the placeholder discards the table. */
  function PerformAnalysisAsWritten(raws: seq<RawVideo>, config: Config.Record, outcome: AiOutcome): (r: AnalysisResult)
    ensures r.wordCloudData == []
    ensures r.videoDetails == DeriveAll(raws)
    ensures r.upAggregate == Authors.AuthorAggregate(r.videoDetails)
    ensures r.aiSummary == AiSummary(config, outcome)
    ensures r.outlierVideos == [] && r.correlationMatrix == map[]
  {
    PerformAnalysis(raws, config, outcome).(wordCloudData := [])
  }

  /** The placeholder is the only difference: with the table of lines 72-79
      put back, the as-written bundle is the intended one. */
  lemma AsWrittenDiffersOnlyInTable(raws: seq<RawVideo>, config: Config.Record, outcome: AiOutcome)
    ensures var r := PerformAnalysisAsWritten(raws, config, outcome);
      r.(wordCloudData := Words.WordTable(r.videoDetails)) == PerformAnalysis(raws, config, outcome)
  {
  }

  /** The placeholder loses information whenever some title has a run of two
      or more word characters: the table of lines 72-79 is then non-empty. */
  lemma PlaceholderDiscardsTable(raws: seq<RawVideo>, config: Config.Record, outcome: AiOutcome, w: string)
    requires Words.Qualifies(w, DeriveAll(raws))
    ensures PerformAnalysisAsWritten(raws, config, outcome).wordCloudData != PerformAnalysis(raws, config, outcome).wordCloudData
  {
    Words.WordTableEmptyIff(DeriveAll(raws));
  }

  /** A concrete input: one video titled "测试" (two characters of the CJK
      range). The intended table is [("测试", 1)]; the placeholder gives []. */
  lemma PlaceholderExample(config: Config.Record, outcome: AiOutcome)
    ensures var raws := [RawVideo("BV1", "测试", "up", 10, 0, 0, 0, 0, 0, 0, 0, "")];
      && PerformAnalysisAsWritten(raws, config, outcome).wordCloudData == []
      && PerformAnalysis(raws, config, outcome).wordCloudData != []
  {
    var raws := [RawVideo("BV1", "测试", "up", 10, 0, 0, 0, 0, 0, 0, 0, "")];
    var ds := DeriveAll(raws);
    assert ds[0].raw.title == "测试";
    assert Words.IsWordChar('测') && Words.IsWordChar('试');
    Words.TokensOfRun("测试");
    assert Words.Qualifies("测试", ds);
    PlaceholderDiscardsTable(raws, config, outcome, "测试");
  }
}

=== FILE: authors.dfy ===
/**
 Per-author aggregation (`up_aggregate` in `performAnalysis`, src/analysis.js):
 lodash's `groupBy('author')` as a left fold that either extends the entry of
 an author already seen or appends a new one, followed by `orderBy` on
 (videoCount, totalViews), both descending.
 */
module Authors {
  import Sorting
  import opened Metrics

  /** One row of `up_aggregate`. */
  datatype AuthorStats = AuthorStats(author: string, videoCount: int, totalViews: int, totalLikes: int)

  function AuthorOf(e: AuthorStats): string {
    e.author
  }

  function CountOf(e: AuthorStats): int {
    e.videoCount
  }

  /** The authors of a list of rows, in row order. */
  function Names(gs: seq<AuthorStats>): (ns: seq<string>)
    ensures |ns| == |gs|
  {
    seq(|gs|, k requires 0 <= k < |gs| => gs[k].author)
  }

  /** The author of every video, in input order. */
  function VideoAuthors(ds: seq<DerivedVideo>): (ns: seq<string>)
    ensures |ns| == |ds|
  {
    seq(|ds|, i requires 0 <= i < |ds| => ds[i].raw.author)
  }

  /** Number of videos by `a`. */
  function VideoCount(ds: seq<DerivedVideo>, a: string): int {
    if |ds| == 0 then 0
    else VideoCount(ds[..|ds| - 1], a) + (if ds[|ds| - 1].raw.author == a then 1 else 0)
  }

  /** Sum of the raw view counts of the videos by `a`. */
  function ViewTotal(ds: seq<DerivedVideo>, a: string): int {
    if |ds| == 0 then 0
    else ViewTotal(ds[..|ds| - 1], a) + (if ds[|ds| - 1].raw.author == a then ds[|ds| - 1].raw.view else 0)
  }

  /** Sum of the raw like counts of the videos by `a`. */
  function LikeTotal(ds: seq<DerivedVideo>, a: string): int {
    if |ds| == 0 then 0
    else LikeTotal(ds[..|ds| - 1], a) + (if ds[|ds| - 1].raw.author == a then ds[|ds| - 1].raw.like else 0)
  }

  /** The row that the source computes for author `a` over all of `ds`. */
  function Tally(ds: seq<DerivedVideo>, a: string): AuthorStats {
    AuthorStats(a, VideoCount(ds, a), ViewTotal(ds, a), LikeTotal(ds, a))
  }

  /** What a grouping of `ds` must satisfy: one row per distinct author of
      `ds` and no other, each row the tally of that author's videos, and the
      video counts adding up to the number of videos. */
  ghost predicate GroupsOf(gs: seq<AuthorStats>, ds: seq<DerivedVideo>) {
    && Sorting.KeysDistinct(gs, AuthorOf)
    && (forall k :: 0 <= k < |gs| ==> gs[k] == Tally(ds, gs[k].author))
    && (forall a :: a in Names(gs) <==> a in VideoAuthors(ds))
    && Sorting.SumBy(gs, CountOf) == |ds|
  }

  /** Position of the row of author `a`, or -1 when there is none. */
  function IndexOfAuthor(gs: seq<AuthorStats>, a: string): (i: int)
    ensures -1 <= i < |gs|
    ensures i >= 0 ==> gs[i].author == a
    ensures i < 0 ==> a !in Names(gs)
  {
    if |gs| == 0 then -1
    else if gs[0].author == a then 0
    else
      var j := IndexOfAuthor(gs[1..], a);
      assert Names(gs) == [gs[0].author] + Names(gs[1..]);
      if j < 0 then -1 else j + 1
  }

  /** One step of `groupBy`: count video `d` towards its author's row. */
  function AddVideo(gs: seq<AuthorStats>, d: DerivedVideo): (r: seq<AuthorStats>)
    ensures |gs| <= |r| <= |gs| + 1
    ensures d.raw.author in Names(r)
    ensures forall k :: 0 <= k < |gs| && gs[k].author != d.raw.author ==> r[k] == gs[k]
  {
    var a := d.raw.author;
    var i := IndexOfAuthor(gs, a);
    var r := if i < 0 then gs + [AuthorStats(a, 1, d.raw.view, d.raw.like)]
      else gs[i := AuthorStats(a, gs[i].videoCount + 1, gs[i].totalViews + d.raw.view, gs[i].totalLikes + d.raw.like)];
    assert Names(r)[if i < 0 then |gs| else i] == a;
    r
  }

  /** `_(video_details).groupBy('author').map(...)`, rows in first-seen order. */
  function GroupByAuthor(ds: seq<DerivedVideo>): (gs: seq<AuthorStats>)
    ensures GroupsOf(gs, ds)
  {
    if |ds| == 0 then []
    else
      var prev := GroupByAuthor(ds[..|ds| - 1]);
      AddVideoKeepsGroups(prev, ds[..|ds| - 1], ds[|ds| - 1]);
      assert ds[..|ds| - 1] + [ds[|ds| - 1]] == ds;
      AddVideo(prev, ds[|ds| - 1])
  }

  lemma {:induction false} AbsentAuthorTalliesZero(ds: seq<DerivedVideo>, a: string)
    requires a !in VideoAuthors(ds)
    ensures Tally(ds, a) == AuthorStats(a, 0, 0, 0)
  {
    if |ds| > 0 {
      var front := ds[..|ds| - 1];
      assert forall i :: 0 <= i < |front| ==> VideoAuthors(front)[i] == VideoAuthors(ds)[i];
      AbsentAuthorTalliesZero(front, a);
      assert VideoAuthors(ds)[|ds| - 1] == ds[|ds| - 1].raw.author;
    }
  }

  lemma SumByUpdate(gs: seq<AuthorStats>, i: nat, e: AuthorStats)
    requires i < |gs|
    ensures Sorting.SumBy(gs[i := e], CountOf) == Sorting.SumBy(gs, CountOf) - gs[i].videoCount + e.videoCount
  {
    var front, back := gs[..i], gs[i + 1..];
    assert gs == front + ([gs[i]] + back);
    assert gs[i := e] == front + ([e] + back);
    Sorting.SumByAppend(front, [gs[i]] + back, CountOf);
    Sorting.SumByAppend(front, [e] + back, CountOf);
    assert ([gs[i]] + back)[1..] == back;
    assert ([e] + back)[1..] == back;
  }

  /** Adding one video changes only its author's tally. */
  lemma TallyExtend(ds: seq<DerivedVideo>, d: DerivedVideo, b: string)
    ensures Tally(ds + [d], b) == if b == d.raw.author
      then AuthorStats(b, Tally(ds, b).videoCount + 1, Tally(ds, b).totalViews + d.raw.view, Tally(ds, b).totalLikes + d.raw.like)
      else Tally(ds, b)
  {
  }

  lemma AddVideoKeepsGroups(gs: seq<AuthorStats>, ds: seq<DerivedVideo>, d: DerivedVideo)
    requires GroupsOf(gs, ds)
    ensures GroupsOf(AddVideo(gs, d), ds + [d])
  {
    assert VideoAuthors(ds + [d]) == VideoAuthors(ds) + [d.raw.author];
    forall b {
      TallyExtend(ds, d, b);
    }
    if IndexOfAuthor(gs, d.raw.author) < 0 {
      AddNewAuthor(gs, ds, d);
    } else {
      AddKnownAuthor(gs, ds, d);
    }
  }

  lemma AddNewAuthor(gs: seq<AuthorStats>, ds: seq<DerivedVideo>, d: DerivedVideo)
    requires GroupsOf(gs, ds)
    requires IndexOfAuthor(gs, d.raw.author) < 0
    requires VideoAuthors(ds + [d]) == VideoAuthors(ds) + [d.raw.author]
    requires forall b :: Tally(ds + [d], b) == if b == d.raw.author
      then AuthorStats(b, Tally(ds, b).videoCount + 1, Tally(ds, b).totalViews + d.raw.view, Tally(ds, b).totalLikes + d.raw.like)
      else Tally(ds, b)
    ensures GroupsOf(AddVideo(gs, d), ds + [d])
  {
    var a := d.raw.author;
    var e := AuthorStats(a, 1, d.raw.view, d.raw.like);
    var gs' := AddVideo(gs, d);
    AbsentAuthorTalliesZero(ds, a);
    assert gs' == gs + [e];
    assert Names(gs') == Names(gs) + [a];
    Sorting.SumByAppend(gs, [e], CountOf);
    forall k | 0 <= k < |gs|
      ensures gs[k].author != a
    {
      assert Names(gs)[k] == gs[k].author;
    }
  }

  lemma AddKnownAuthor(gs: seq<AuthorStats>, ds: seq<DerivedVideo>, d: DerivedVideo)
    requires GroupsOf(gs, ds)
    requires IndexOfAuthor(gs, d.raw.author) >= 0
    requires VideoAuthors(ds + [d]) == VideoAuthors(ds) + [d.raw.author]
    requires forall b :: Tally(ds + [d], b) == if b == d.raw.author
      then AuthorStats(b, Tally(ds, b).videoCount + 1, Tally(ds, b).totalViews + d.raw.view, Tally(ds, b).totalLikes + d.raw.like)
      else Tally(ds, b)
    ensures GroupsOf(AddVideo(gs, d), ds + [d])
  {
    var a := d.raw.author;
    var i := IndexOfAuthor(gs, a);
    var e := AuthorStats(a, gs[i].videoCount + 1, gs[i].totalViews + d.raw.view, gs[i].totalLikes + d.raw.like);
    assert AddVideo(gs, d) == gs[i := e];
    UpdateKeepsGroups(gs, ds, d, i);
  }

  /** Counting `d` into the row `i` of its author keeps the grouping. */
  lemma UpdateKeepsGroups(gs: seq<AuthorStats>, ds: seq<DerivedVideo>, d: DerivedVideo, i: nat)
    requires GroupsOf(gs, ds)
    requires i < |gs| && gs[i].author == d.raw.author
    requires VideoAuthors(ds + [d]) == VideoAuthors(ds) + [d.raw.author]
    requires forall b :: Tally(ds + [d], b) == if b == d.raw.author
      then AuthorStats(b, Tally(ds, b).videoCount + 1, Tally(ds, b).totalViews + d.raw.view, Tally(ds, b).totalLikes + d.raw.like)
      else Tally(ds, b)
    ensures GroupsOf(gs[i := AuthorStats(d.raw.author, gs[i].videoCount + 1, gs[i].totalViews + d.raw.view, gs[i].totalLikes + d.raw.like)], ds + [d])
  {
    var e := AuthorStats(d.raw.author, gs[i].videoCount + 1, gs[i].totalViews + d.raw.view, gs[i].totalLikes + d.raw.like);
    UpdateKeepsNames(gs, i, e);
    assert Names(gs)[i] == d.raw.author;
    KnownAuthorKeepsAuthors(ds, d);
    SumByUpdate(gs, i, e);
  }

  /** Replacing a row by one with the same author keeps the author list. */
  lemma UpdateKeepsNames(gs: seq<AuthorStats>, i: nat, e: AuthorStats)
    requires i < |gs| && e.author == gs[i].author
    ensures Names(gs[i := e]) == Names(gs)
  {
  }

  /** A video by an author already present adds no new author. */
  lemma KnownAuthorKeepsAuthors(ds: seq<DerivedVideo>, d: DerivedVideo)
    requires d.raw.author in VideoAuthors(ds)
    requires VideoAuthors(ds + [d]) == VideoAuthors(ds) + [d.raw.author]
    ensures forall b :: b in VideoAuthors(ds + [d]) <==> b in VideoAuthors(ds)
  {
    forall b
      ensures b in VideoAuthors(ds + [d]) <==> b in VideoAuthors(ds)
    {
      assert b in VideoAuthors(ds) + [d.raw.author] <==> b in VideoAuthors(ds) || b == d.raw.author;
    }
  }

  /** `orderBy(['videoCount', 'totalViews'], ['desc', 'desc'])`. */
  function ByCountThenViews(x: AuthorStats, y: AuthorStats): bool {
    x.videoCount > y.videoCount || (x.videoCount == y.videoCount && x.totalViews >= y.totalViews)
  }

  /** `up_aggregate`: exactly one row per distinct author, each row the
      count, view total and like total of that author's videos, the counts
      summing to the number of videos, rows ordered by (videoCount,
      totalViews) non-increasing. The order among full ties is left open. */
  function AuthorAggregate(ds: seq<DerivedVideo>): (r: seq<AuthorStats>)
    ensures Sorting.KeysDistinct(r, AuthorOf)
    ensures forall a :: a in Names(r) <==> a in VideoAuthors(ds)
    ensures forall k :: 0 <= k < |r| ==>
      r[k].videoCount == VideoCount(ds, r[k].author) &&
      r[k].totalViews == ViewTotal(ds, r[k].author) &&
      r[k].totalLikes == LikeTotal(ds, r[k].author)
    ensures Sorting.SumBy(r, CountOf) == |ds|
    ensures forall i, j :: 0 <= i < j < |r| ==>
      r[i].videoCount > r[j].videoCount ||
      (r[i].videoCount == r[j].videoCount && r[i].totalViews >= r[j].totalViews)
  {
    var gs := GroupByAuthor(ds);
    assert Sorting.TotalPreorder(ByCountThenViews);
    var r := Sorting.Sort(gs, ByCountThenViews);
    Sorting.SortKeepsKeysDistinct(gs, ByCountThenViews, AuthorOf);
    Sorting.SortPreservesSumBy(gs, ByCountThenViews, CountOf);
    PermutationKeepsNames(gs, r);
    PermutationKeepsTallies(gs, r, ds);
    r
  }

  lemma PermutationKeepsTallies(gs: seq<AuthorStats>, r: seq<AuthorStats>, ds: seq<DerivedVideo>)
    requires multiset(gs) == multiset(r)
    requires forall k :: 0 <= k < |gs| ==> gs[k] == Tally(ds, gs[k].author)
    ensures forall k :: 0 <= k < |r| ==> r[k] == Tally(ds, r[k].author)
  {
    forall k | 0 <= k < |r|
      ensures r[k] == Tally(ds, r[k].author)
    {
      assert r[k] in multiset(gs);
    }
  }

  lemma PermutationKeepsNames(gs: seq<AuthorStats>, r: seq<AuthorStats>)
    requires multiset(gs) == multiset(r)
    ensures forall a :: a in Names(r) <==> a in Names(gs)
  {
    forall a | a in Names(r)
      ensures a in Names(gs)
    {
      var k :| 0 <= k < |r| && Names(r)[k] == a;
      assert r[k] in multiset(gs);
      var m :| 0 <= m < |gs| && gs[m] == r[k];
      assert Names(gs)[m] == a;
    }
    forall a | a in Names(gs)
      ensures a in Names(r)
    {
      var k :| 0 <= k < |gs| && Names(gs)[k] == a;
      assert gs[k] in multiset(r);
      var m :| 0 <= m < |r| && r[m] == gs[k];
      assert Names(r)[m] == a;
    }
  }
}

=== FILE: config.dfy ===
/**
 User settings (src/config.js): a default record, overridden key by key by
 the record kept in the userscript store, and saved back after merging a
 partial update. The store holds the record itself: serialising to JSON and
 parsing it back is taken to be the identity.
 */
module Config {
  import opened Wrappers

  /** A JSON value as it can appear in a settings record. */
  datatype Value = Null | Bool(b: bool) | Num(n: real) | Str(s: string)

  /** A settings object: property name to value. */
  type Record = map<string, Value>

  /** The stored settings; `None` when nothing is stored under the key, or
      when what is stored is falsy (the empty string). */
  type Store = Option<Record>

  const ApiUrlKey: string := "aiApiUrl"
  const ApiKeyKey: string := "aiApiKey"
  const RefreshKey: string := "refresh_interval"
  const ThemeKey: string := "theme"
  const VideoLimitKey: string := "videoLimit"

  /** `defaultConfig`. */
  const Defaults: Record := map[
    ApiUrlKey := Str("https://api.newapi.com/v1/chat/completions"),
    ApiKeyKey := Str(""),
    RefreshKey := Num(0.0),
    ThemeKey := Str("auto"),
    VideoLimitKey := Num(20.0)
  ]

  /** JavaScript truthiness of a property lookup; a missing property reads
      as `undefined`, which is falsy. */
  predicate Truthy(v: Option<Value>): (b: bool)
    ensures b ==> v.Some? && !v.value.Null?
    ensures v.Some? && v.value.Str? ==> (b <==> |v.value.s| > 0)
  {
    match v
    case None => false
    case Some(Null) => false
    case Some(Bool(b)) => b
    case Some(Num(n)) => n != 0.0
    case Some(Str(s)) => s != ""
  }

  function Get(c: Record, k: string): Option<Value> {
    if k in c then Some(c[k]) else None
  }

  /** `loadConfig`: the defaults, then every stored property on top
      (`{ ...defaultConfig, ...stored }`). */
  function LoadConfig(store: Store): (c: Record)
    ensures store.None? ==> c == Defaults
    ensures store.Some? ==> c.Keys == Defaults.Keys + store.value.Keys
    ensures store.Some? ==> forall k :: k in store.value ==> c[k] == store.value[k]
    ensures store.Some? ==> forall k :: k in Defaults && k !in store.value ==> c[k] == Defaults[k]
  {
    match store
    case None => Defaults
    case Some(stored) => Defaults + stored
  }

  /** `saveConfig(partial)`: the loaded settings with every property of
      `partial` on top, written back. The next load sees every property of
      `partial`, and every other property as the previous load saw it. */
  function SaveConfig(store: Store, partial: Record): (s: Store)
    ensures s.Some?
    ensures LoadConfig(s).Keys == LoadConfig(store).Keys + partial.Keys
    ensures forall k :: k in partial ==> LoadConfig(s)[k] == partial[k]
    ensures forall k :: k in LoadConfig(store) && k !in partial ==> LoadConfig(s)[k] == LoadConfig(store)[k]
  {
    Some(LoadConfig(store) + partial)
  }

  /** The record loaded when nothing usable is stored, property by property. */
  lemma DefaultsWhenNothingStored()
    ensures LoadConfig(None).Keys == {ApiUrlKey, ApiKeyKey, RefreshKey, ThemeKey, VideoLimitKey}
    ensures Get(LoadConfig(None), ApiUrlKey) == Some(Str("https://api.newapi.com/v1/chat/completions"))
    ensures Get(LoadConfig(None), ApiKeyKey) == Some(Str(""))
    ensures Get(LoadConfig(None), RefreshKey) == Some(Num(0.0))
    ensures Get(LoadConfig(None), ThemeKey) == Some(Str("auto"))
    ensures Get(LoadConfig(None), VideoLimitKey) == Some(Num(20.0))
  {
  }

  /** Loading never loses a default property: every default key is present
      whatever is stored. */
  lemma LoadKeepsDefaultKeys(store: Store)
    ensures Defaults.Keys <= LoadConfig(store).Keys
  {
  }

  /** Saving the same partial record twice stores what saving it once
      stores. */
  lemma SaveIdempotent(store: Store, partial: Record)
    ensures SaveConfig(SaveConfig(store, partial), partial) == SaveConfig(store, partial)
  {
    var once := SaveConfig(store, partial);
    var twice := SaveConfig(once, partial);
    assert LoadConfig(once).Keys == LoadConfig(store).Keys + partial.Keys;
    assert LoadConfig(twice).Keys == LoadConfig(once).Keys;
    MapsEqual(twice.value, once.value);
  }

  /** Saving an empty partial record changes nothing the next load sees. */
  lemma SaveNothingKeepsLoad(store: Store)
    ensures LoadConfig(SaveConfig(store, map[])) == LoadConfig(store)
  {
  }

  /** Saving over a store that holds only defaults, or holds nothing, gives
      the same result: a stored copy of the defaults is indistinguishable
      from no store at all. */
  lemma StoredDefaultsActLikeNothing(partial: Record)
    ensures SaveConfig(Some(Defaults), partial) == SaveConfig(None, partial)
  {
    MapsEqual(LoadConfig(Some(Defaults)), Defaults);
  }

  lemma MapsEqual(a: Record, b: Record)
    requires a.Keys == b.Keys
    requires forall k :: k in a ==> a[k] == b[k]
    ensures a == b
  {
  }
}

=== FILE: metrics.dfy ===
/**
 Video records and the per-video engagement rates (`calculateDerivedMetrics`
 in src/analysis.js). Counters are unbounded integers and rates exact reals.
 */
module Metrics {

  /** One entry of the popular-videos list, with the fields the API client
      projects out of the upstream response. */
  datatype RawVideo = RawVideo(
    bvid: string,
    title: string,
    author: string,
    view: int,
    danmaku: int,
    reply: int,
    favorite: int,
    coin: int,
    share: int,
    like: int,
    pubdate: int,
    pic: string)

  /** A raw video (kept unchanged in `raw`) extended with its rates. */
  datatype DerivedVideo = DerivedVideo(
    raw: RawVideo,
    likeRate: real,
    coinRate: real,
    favRate: real,
    interactionRate: real)

  /** `x` times the integer `n`. */
  function Scaled(x: real, n: int): real {
    x * n as real
  }

  /** The divisor of every rate: the view count when it is positive, 1 otherwise. */
  function RateDenominator(v: RawVideo): (d: int)
    ensures d >= 1
    ensures v.view >= 1 ==> d == v.view
  {
    if v.view > 0 then v.view else 1
  }

  /** The per-video rates. A non-positive view count is replaced by 1 as the
      divisor only; the stored record keeps its own `view`. */
  function Derive(v: RawVideo): (d: DerivedVideo)
    ensures d.raw == v
    ensures v.view > 0 ==> Scaled(d.likeRate, v.view) == v.like as real
    ensures v.view > 0 ==> Scaled(d.coinRate, v.view) == v.coin as real
    ensures v.view > 0 ==> Scaled(d.favRate, v.view) == v.favorite as real
    ensures v.view <= 0 ==> d.likeRate == v.like as real && d.coinRate == v.coin as real && d.favRate == v.favorite as real
    ensures d.interactionRate == d.likeRate + d.coinRate + d.favRate
  {
    var den := RateDenominator(v) as real;
    DivisionDistributes(v.like as real, v.coin as real, v.favorite as real, den);
    DerivedVideo(
      v,
      v.like as real / den,
      v.coin as real / den,
      v.favorite as real / den,
      (v.like + v.coin + v.favorite) as real / den)
  }

  lemma DivisionDistributes(a: real, b: real, c: real, den: real)
    requires den > 0.0
    ensures (a + b + c) / den == a / den + b / den + c / den
    ensures (a / den) * den == a
  {
  }

  /** The raw records behind a list of derived videos. */
  function Raws(ds: seq<DerivedVideo>): (raws: seq<RawVideo>)
    ensures |raws| == |ds|
  {
    seq(|ds|, i requires 0 <= i < |ds| => ds[i].raw)
  }

  /** `rawData.map(calculateDerivedMetrics)`: same length and order as the
      input, element i derived from input element i. */
  function DeriveAll(raws: seq<RawVideo>): (ds: seq<DerivedVideo>)
    ensures |ds| == |raws|
    ensures forall i :: 0 <= i < |raws| ==> ds[i] == Derive(raws[i])
  {
    seq(|raws|, i requires 0 <= i < |raws| => Derive(raws[i]))
  }

  /** Projecting the raw records back out of the derived list gives the
      input list. */
  lemma DeriveAllKeepsRaws(raws: seq<RawVideo>)
    ensures Raws(DeriveAll(raws)) == raws
  {
  }

  /** A video's rates never divide by zero: with no views the rates are the
      counters themselves, and every rate of a video with non-negative
      counters is non-negative. */
  lemma RatesNonNegative(v: RawVideo)
    requires v.like >= 0 && v.coin >= 0 && v.favorite >= 0
    ensures Derive(v).likeRate >= 0.0 && Derive(v).coinRate >= 0.0
    ensures Derive(v).favRate >= 0.0 && Derive(v).interactionRate >= 0.0
  {
  }
}

=== FILE: sorting.dfy ===
/**
 Stable ordering of sequences by a caller-supplied "may come before" relation,
 the model of lodash's `sortBy` and `orderBy`, and sums over sequences that the
 ordering must preserve.
 */
module Sorting {

  /** `le(a, b)` reads "`a` may be placed before `b`"; a usable ordering key is
      total and transitive. */
  ghost predicate TotalPreorder<T(!new)>(le: (T, T) -> bool) {
    && (forall a, b :: le(a, b) || le(b, a))
    && (forall a, b, c :: le(a, b) && le(b, c) ==> le(a, c))
  }

  /** Every element may be placed before every later one. */
  ghost predicate SortedBy<T>(s: seq<T>, le: (T, T) -> bool) {
    forall i, j :: 0 <= i < j < |s| ==> le(s[i], s[j])
  }

  /** No two elements of `s` share a key. */
  ghost predicate KeysDistinct<T, K>(s: seq<T>, key: T -> K) {
    forall i, j :: 0 <= i < j < |s| ==> key(s[i]) != key(s[j])
  }

  /** Places `x` in front of the first element it may precede, so that it
      stays ahead of the elements it ties with. */
  function Insert<T(!new)>(x: T, s: seq<T>, le: (T, T) -> bool): (r: seq<T>)
    ensures |r| == |s| + 1
    ensures multiset(r) == multiset(s) + multiset{x}
  {
    if |s| == 0 then [x]
    else if le(x, s[0]) then [x] + s
    else
      assert s == [s[0]] + s[1..];
      [s[0]] + Insert(x, s[1..], le)
  }

  lemma {:induction false} InsertSorted<T(!new)>(x: T, s: seq<T>, le: (T, T) -> bool)
    ensures TotalPreorder(le) && SortedBy(s, le) ==> SortedBy(Insert(x, s, le), le)
  {
    var r := Insert(x, s, le);
    if !(TotalPreorder(le) && SortedBy(s, le)) || |s| == 0 {
    } else if le(x, s[0]) {
      forall i, j | 0 <= i < j < |r|
        ensures le(r[i], r[j])
      {
        if i == 0 && j > 1 {
          assert le(s[0], s[j - 1]);
        }
      }
    } else {
      var rest := Insert(x, s[1..], le);
      assert r == [s[0]] + rest;
      InsertSorted(x, s[1..], le);
      forall k | 0 <= k < |rest|
        ensures le(s[0], rest[k])
      {
        assert rest[k] in multiset(s[1..]) + multiset{x};
        if rest[k] != x {
          assert rest[k] in s[1..];
          var m :| 0 <= m < |s[1..]| && s[1..][m] == rest[k];
          assert le(s[0], s[m + 1]);
        }
      }
      forall i, j | 0 <= i < j < |r|
        ensures le(r[i], r[j])
      {
        if i > 0 {
          assert le(rest[i - 1], rest[j - 1]);
        }
      }
    }
  }

  /** Stable insertion sort: elements that tie keep their input order. */
  function Sort<T(!new)>(xs: seq<T>, le: (T, T) -> bool): (r: seq<T>)
    ensures |r| == |xs|
    ensures multiset(r) == multiset(xs)
    ensures TotalPreorder(le) ==> SortedBy(r, le)
  {
    if |xs| == 0 then []
    else
      assert xs == [xs[0]] + xs[1..];
      var tail := Sort(xs[1..], le);
      InsertSorted(xs[0], tail, le);
      Insert(xs[0], tail, le)
  }

  /** Sum of `f` over the elements of `s`. */
  function SumBy<T>(s: seq<T>, f: T -> int): int {
    if |s| == 0 then 0 else f(s[0]) + SumBy(s[1..], f)
  }

  lemma {:induction false} SumByAppend<T>(a: seq<T>, b: seq<T>, f: T -> int)
    ensures SumBy(a + b, f) == SumBy(a, f) + SumBy(b, f)
  {
    if |a| == 0 {
      assert a + b == b;
    } else {
      assert (a + b)[1..] == a[1..] + b;
      SumByAppend(a[1..], b, f);
    }
  }

  /** A sum of zeros and ones is at most the length of the sequence. */
  lemma {:induction false} SumByAtMostLength<T>(s: seq<T>, f: T -> int)
    requires forall i :: 0 <= i < |s| ==> 0 <= f(s[i]) <= 1
    ensures 0 <= SumBy(s, f) <= |s|
  {
    if |s| > 0 {
      SumByAtMostLength(s[1..], f);
    }
  }

  lemma {:induction false} SumByZero<T>(s: seq<T>, f: T -> int)
    requires forall i :: 0 <= i < |s| ==> f(s[i]) == 0
    ensures SumBy(s, f) == 0
  {
    if |s| > 0 {
      SumByZero(s[1..], f);
    }
  }

  lemma {:induction false} InsertSumBy<T(!new)>(x: T, s: seq<T>, le: (T, T) -> bool, f: T -> int)
    ensures SumBy(Insert(x, s, le), f) == f(x) + SumBy(s, f)
  {
    if |s| == 0 || le(x, s[0]) {
    } else {
      var r := Insert(x, s, le);
      assert r[1..] == Insert(x, s[1..], le);
      InsertSumBy(x, s[1..], le, f);
    }
  }

  /** Reordering does not change a sum. */
  lemma {:induction false} SortPreservesSumBy<T(!new)>(xs: seq<T>, le: (T, T) -> bool, f: T -> int)
    ensures SumBy(Sort(xs, le), f) == SumBy(xs, f)
  {
    if |xs| > 0 {
      SortPreservesSumBy(xs[1..], le, f);
      InsertSumBy(xs[0], Sort(xs[1..], le), le, f);
    }
  }

  lemma {:induction false} InsertKeepsKeysDistinct<T(!new), K>(x: T, s: seq<T>, le: (T, T) -> bool, key: T -> K)
    requires KeysDistinct(s, key)
    requires forall k :: 0 <= k < |s| ==> key(s[k]) != key(x)
    ensures KeysDistinct(Insert(x, s, le), key)
  {
    if |s| == 0 || le(x, s[0]) {
    } else {
      var r := Insert(x, s, le);
      var rest := Insert(x, s[1..], le);
      assert r == [s[0]] + rest;
      InsertKeepsKeysDistinct(x, s[1..], le, key);
      forall k | 0 <= k < |rest|
        ensures key(rest[k]) != key(s[0])
      {
        assert rest[k] in multiset(s[1..]) + multiset{x};
        if rest[k] != x {
          assert rest[k] in s[1..];
          var m :| 0 <= m < |s[1..]| && s[1..][m] == rest[k];
          assert key(s[m + 1]) != key(s[0]);
        }
      }
    }
  }

  /** Reordering keeps keys that were distinct distinct. */
  lemma {:induction false} SortKeepsKeysDistinct<T(!new), K>(xs: seq<T>, le: (T, T) -> bool, key: T -> K)
    requires KeysDistinct(xs, key)
    ensures KeysDistinct(Sort(xs, le), key)
  {
    if |xs| > 0 {
      var tail := Sort(xs[1..], le);
      SortKeepsKeysDistinct(xs[1..], le, key);
      forall k | 0 <= k < |tail|
        ensures key(tail[k]) != key(xs[0])
      {
        assert tail[k] in multiset(xs[1..]);
        var m :| 0 <= m < |xs[1..]| && xs[1..][m] == tail[k];
        assert key(xs[m + 1]) != key(xs[0]);
      }
      InsertKeepsKeysDistinct(xs[0], tail, le, key);
    }
  }

  /** `f` applied to every element, in order. */
  function Map<A, B>(xs: seq<A>, f: A -> B): (ys: seq<B>)
    ensures |ys| == |xs|
    ensures forall i :: 0 <= i < |xs| ==> ys[i] == f(xs[i])
  {
    seq(|xs|, i requires 0 <= i < |xs| => f(xs[i]))
  }

  lemma {:induction false} InsertMap<A(!new), B(!new)>(x: A, s: seq<A>, le: (A, A) -> bool, f: A -> B, le': (B, B) -> bool)
    requires forall a, b :: le'(f(a), f(b)) == le(a, b)
    ensures Insert(f(x), Map(s, f), le') == Map(Insert(x, s, le), f)
  {
    if |s| > 0 && !le(x, s[0]) {
      assert Map(s, f)[1..] == Map(s[1..], f);
      InsertMap(x, s[1..], le, f, le');
    }
  }

  /** Sorting commutes with a map that carries the ordering over: ordering
      the images is ordering the originals and then mapping them. */
  lemma {:induction false} SortMap<A(!new), B(!new)>(xs: seq<A>, le: (A, A) -> bool, f: A -> B, le': (B, B) -> bool)
    requires forall a, b :: le'(f(a), f(b)) == le(a, b)
    ensures Sort(Map(xs, f), le') == Map(Sort(xs, le), f)
  {
    if |xs| > 0 {
      assert Map(xs, f)[1..] == Map(xs[1..], f);
      SortMap(xs[1..], le, f, le');
      InsertMap(xs[0], Sort(xs[1..], le), le, f, le');
    }
  }
}

=== FILE: statistics.dfy ===
/**
 Descriptive statistics over the seven analysed fields (the `descriptive_stats`
 reduce of `performAnalysis` in src/analysis.js): mean, median, population
 variance, minimum and maximum. The standard deviation is the square root of
 the variance; the root itself is not modelled.
 */
module Statistics {
  import opened Wrappers
  import Sorting
  import opened Metrics

  /** The fields named in `metricsToAnalyze`. */
  datatype Metric = View | Like | Coin | Favorite | Danmaku | Reply | InteractionRate

  const AnalyzedMetrics: set<Metric> := {View, Like, Coin, Favorite, Danmaku, Reply, InteractionRate}

  /** The value of field `m` of a derived video. */
  function MetricValue(d: DerivedVideo, m: Metric): real {
    match m
    case View => d.raw.view as real
    case Like => d.raw.like as real
    case Coin => d.raw.coin as real
    case Favorite => d.raw.favorite as real
    case Danmaku => d.raw.danmaku as real
    case Reply => d.raw.reply as real
    case InteractionRate => d.interactionRate
  }

  /** `_.map(video_details, metric)`. */
  function Column(ds: seq<DerivedVideo>, m: Metric): (xs: seq<real>)
    ensures |xs| == |ds|
    ensures forall i :: 0 <= i < |ds| ==> xs[i] == MetricValue(ds[i], m)
  {
    seq(|ds|, i requires 0 <= i < |ds| => MetricValue(ds[i], m))
  }

  function Sum(xs: seq<real>): real {
    if |xs| == 0 then 0.0 else xs[0] + Sum(xs[1..])
  }

  /** `_.min`: a member of the values that no value is below. */
  function Minimum(xs: seq<real>): (lo: real)
    requires |xs| > 0
    ensures lo in xs
    ensures forall i :: 0 <= i < |xs| ==> lo <= xs[i]
  {
    if |xs| == 1 then xs[0]
    else
      var rest := Minimum(xs[1..]);
      assert forall i :: 1 <= i < |xs| ==> xs[i] == xs[1..][i - 1];
      if xs[0] <= rest then xs[0] else rest
  }

  /** `_.max`: a member of the values that no value is above. */
  function Maximum(xs: seq<real>): (hi: real)
    requires |xs| > 0
    ensures hi in xs
    ensures forall i :: 0 <= i < |xs| ==> xs[i] <= hi
  {
    if |xs| == 1 then xs[0]
    else
      var rest := Maximum(xs[1..]);
      assert forall i :: 1 <= i < |xs| ==> xs[i] == xs[1..][i - 1];
      if xs[0] >= rest then xs[0] else rest
  }

  /** `_.mean`: the sum divided by the count. */
  function Mean(xs: seq<real>): (mu: real)
    requires |xs| > 0
    ensures Scaled(mu, |xs|) == Sum(xs)
  {
    Sum(xs) / |xs| as real
  }

  /** The ascending order `_.sortBy` puts numbers in. */
  function Ascending(a: real, b: real): bool {
    a <= b
  }

  function SortAscending(xs: seq<real>): (s: seq<real>)
    ensures multiset(s) == multiset(xs)
    ensures forall i, j :: 0 <= i < j < |s| ==> s[i] <= s[j]
  {
    assert Sorting.TotalPreorder(Ascending);
    Sorting.Sort(xs, Ascending)
  }

  /** `_.sortBy(values)[Math.floor(values.length / 2)]`: for an even count
      this is the upper of the two middle values. */
  function Median(xs: seq<real>): (med: real)
    requires |xs| > 0
    ensures med in xs
  {
    var s := SortAscending(xs);
    assert s[|xs| / 2] in multiset(xs);
    s[|xs| / 2]
  }

  function Square(d: real): real {
    d * d
  }

  /** Sum of squared deviations from `mu`. */
  function SquaredDeviation(xs: seq<real>, mu: real): (q: real)
    ensures q >= 0.0
  {
    if |xs| == 0 then 0.0
    else
      SquareSign(xs[0] - mu);
      Square(xs[0] - mu) + SquaredDeviation(xs[1..], mu)
  }

  lemma ProductOfPositives(a: real, b: real, p: real)
    requires a > 0.0 && b > 0.0 && p == a * b
    ensures p > 0.0
  {
  }

  lemma ProductOfNegatives(a: real, b: real, p: real)
    requires a < 0.0 && b < 0.0 && p == a * b
    ensures p > 0.0
  {
  }

  lemma SquareSign(d: real)
    ensures Square(d) >= 0.0
    ensures d != 0.0 ==> Square(d) > 0.0
  {
    var p := Square(d);
    if d > 0.0 {
      ProductOfPositives(d, d, p);
    } else if d < 0.0 {
      ProductOfNegatives(d, d, p);
    }
  }

  /** Cancelling a positive factor keeps an inequality. */
  lemma CancelPositive(a: real, b: real, n: real)
    requires n > 0.0
    requires a * n <= b * n
    ensures a <= b
  {
  }

  /** The population variance (dividing by the count, not the count minus
      one); the source's `stdDev` is its square root. */
  function Variance(xs: seq<real>): (v: real)
    requires |xs| > 0
    ensures v >= 0.0
    ensures Scaled(v, |xs|) == SquaredDeviation(xs, Mean(xs))
  {
    SquaredDeviation(xs, Mean(xs)) / |xs| as real
  }

  /** One entry of `descriptive_stats`; `variance` stands for `stdDev` squared. */
  datatype FieldStats = FieldStats(mean: real, median: real, variance: real, min: real, max: real)

  /** The statistics of one column. With no values lodash yields NaN and
      `undefined`, modelled as `None`. */
  function Summarize(xs: seq<real>): (r: Option<FieldStats>)
    ensures r.None? <==> |xs| == 0
    ensures r.Some? ==> r.value.min in xs && r.value.max in xs && r.value.median in xs
    ensures r.Some? ==> forall i :: 0 <= i < |xs| ==> r.value.min <= xs[i] <= r.value.max
    ensures r.Some? ==> r.value.min <= r.value.mean <= r.value.max
    ensures r.Some? ==> r.value.min <= r.value.median <= r.value.max
    ensures r.Some? ==> r.value.variance >= 0.0
  {
    if |xs| == 0 then None
    else
      var mu, med, lo, hi := Mean(xs), Median(xs), Minimum(xs), Maximum(xs);
      MeanBounds(xs);
      assert lo <= med <= hi by {
        var k :| 0 <= k < |xs| && xs[k] == med;
      }
      Some(FieldStats(mu, med, Variance(xs), lo, hi))
  }

  /** What each field of a summary means: the mean times the count is the
      sum, the variance times the count is the sum of squared deviations
      from the mean (population variance), at most half of the values lie
      strictly below the median and at most the other half strictly
      above it. */
  lemma SummaryFields(xs: seq<real>)
    requires |xs| > 0
    ensures Summarize(xs).Some?
    ensures Scaled(Summarize(xs).value.mean, |xs|) == Sum(xs)
    ensures Scaled(Summarize(xs).value.variance, |xs|) == SquaredDeviation(xs, Summarize(xs).value.mean)
    ensures CountBelow(xs, Summarize(xs).value.median) <= |xs| / 2
    ensures CountAbove(xs, Summarize(xs).value.median) <= |xs| - 1 - |xs| / 2
  {
    var r := Summarize(xs).value;
    assert r.mean == Mean(xs) && r.variance == Variance(xs) && r.median == Median(xs);
    MedianRank(xs);
  }

  /** Every field of `Metric` is analysed. */
  lemma EveryMetricAnalyzed(m: Metric)
    ensures m in AnalyzedMetrics
  {
    match m
    case View =>
    case Like =>
    case Coin =>
    case Favorite =>
    case Danmaku =>
    case Reply =>
    case InteractionRate =>
  }

  /** `descriptive_stats`: one entry per analysed field. */
  function DescriptiveStats(ds: seq<DerivedVideo>): (r: map<Metric, Option<FieldStats>>)
    ensures forall m :: m in r
    ensures forall m {:trigger Column(ds, m)} :: r[m] == Summarize(Column(ds, m))
    ensures forall m :: m in r ==> (r[m].None? <==> |ds| == 0)
  {
    forall m ensures m in AnalyzedMetrics {
      EveryMetricAnalyzed(m);
    }
    map m | m in AnalyzedMetrics :: Summarize(Column(ds, m))
  }

  /** The entry of field `m` for a non-empty list: its mean times the number
      of videos is the field's total, its variance times the number of videos
      is the sum of squared deviations, its minimum, maximum and median are
      values of that field, and the median is the upper middle value. */
  lemma DescriptiveStatsOfField(ds: seq<DerivedVideo>, m: Metric)
    requires |ds| > 0
    ensures var xs, e := Column(ds, m), DescriptiveStats(ds)[m];
      && e.Some?
      && Scaled(e.value.mean, |ds|) == Sum(xs)
      && Scaled(e.value.variance, |ds|) == SquaredDeviation(xs, e.value.mean)
      && e.value.min in xs && e.value.max in xs && e.value.median in xs
      && CountBelow(xs, e.value.median) <= |ds| / 2
      && CountAbove(xs, e.value.median) <= |ds| - 1 - |ds| / 2
  {
    SummaryFields(Column(ds, m));
  }

  lemma {:induction false} SumLowerBound(xs: seq<real>, lo: real)
    requires forall i :: 0 <= i < |xs| ==> lo <= xs[i]
    ensures lo * |xs| as real <= Sum(xs)
  {
    if |xs| > 0 {
      SumLowerBound(xs[1..], lo);
    }
  }

  lemma {:induction false} SumUpperBound(xs: seq<real>, hi: real)
    requires forall i :: 0 <= i < |xs| ==> xs[i] <= hi
    ensures Sum(xs) <= hi * |xs| as real
  {
    if |xs| > 0 {
      SumUpperBound(xs[1..], hi);
    }
  }

  /** A lower bound of every value bounds the mean. */
  lemma MeanAtLeast(xs: seq<real>, lo: real)
    requires |xs| > 0
    requires forall i :: 0 <= i < |xs| ==> lo <= xs[i]
    ensures lo <= Mean(xs)
  {
    var n := |xs| as real;
    SumLowerBound(xs, lo);
    CancelPositive(lo, Mean(xs), n);
  }

  /** An upper bound of every value bounds the mean. */
  lemma MeanAtMost(xs: seq<real>, hi: real)
    requires |xs| > 0
    requires forall i :: 0 <= i < |xs| ==> xs[i] <= hi
    ensures Mean(xs) <= hi
  {
    var n := |xs| as real;
    SumUpperBound(xs, hi);
    CancelPositive(Mean(xs), hi, n);
  }

  /** The mean lies between the smallest and the largest value. */
  lemma MeanBounds(xs: seq<real>)
    requires |xs| > 0
    ensures Minimum(xs) <= Mean(xs) <= Maximum(xs)
  {
    MeanAtLeast(xs, Minimum(xs));
    MeanAtMost(xs, Maximum(xs));
  }

  /** 1 for a value strictly below `c`, 0 otherwise. */
  function BelowIndicator(c: real): real -> int {
    x => if x < c then 1 else 0
  }

  /** 1 for a value strictly above `c`, 0 otherwise. */
  function AboveIndicator(c: real): real -> int {
    x => if x > c then 1 else 0
  }

  /** Number of values strictly below `c`. */
  function CountBelow(xs: seq<real>, c: real): int {
    Sorting.SumBy(xs, BelowIndicator(c))
  }

  /** Number of values strictly above `c`. */
  function CountAbove(xs: seq<real>, c: real): int {
    Sorting.SumBy(xs, AboveIndicator(c))
  }

  /** The median is the value of rank `n / 2`: at most `n / 2` values lie
      strictly below it and at most `n - 1 - n / 2` strictly above it, so for
      an even count it is the upper-middle value. */
  lemma MedianRank(xs: seq<real>)
    requires |xs| > 0
    ensures CountBelow(xs, Median(xs)) <= |xs| / 2
    ensures CountAbove(xs, Median(xs)) <= |xs| - 1 - |xs| / 2
  {
    var s := SortAscending(xs);
    var k := |xs| / 2;
    Sorting.SortPreservesSumBy(xs, Ascending, BelowIndicator(s[k]));
    Sorting.SortPreservesSumBy(xs, Ascending, AboveIndicator(s[k]));
    CountBelowSorted(s, k);
    CountAboveSorted(s, k);
  }

  /** In an ascending sequence, only the values before position `k` can be
      below the value at `k`. */
  lemma CountBelowSorted(s: seq<real>, k: nat)
    requires k < |s|
    requires forall i, j :: 0 <= i < j < |s| ==> s[i] <= s[j]
    ensures CountBelow(s, s[k]) <= k
  {
    var f := BelowIndicator(s[k]);
    var front, back := s[..k], s[k..];
    assert s == front + back;
    Sorting.SumByAppend(front, back, f);
    assert forall i :: 0 <= i < |front| ==> 0 <= f(front[i]) <= 1;
    Sorting.SumByAtMostLength(front, f);
    assert forall i :: 0 <= i < |back| ==> back[i] == s[k + i] && f(back[i]) == 0;
    Sorting.SumByZero(back, f);
  }

  /** In an ascending sequence, only the values after position `k` can be
      above the value at `k`. */
  lemma CountAboveSorted(s: seq<real>, k: nat)
    requires k < |s|
    requires forall i, j :: 0 <= i < j < |s| ==> s[i] <= s[j]
    ensures CountAbove(s, s[k]) <= |s| - 1 - k
  {
    var f := AboveIndicator(s[k]);
    var front, back := s[..k + 1], s[k + 1..];
    assert s == front + back;
    Sorting.SumByAppend(front, back, f);
    assert forall i :: 0 <= i < |front| ==> front[i] == s[i] && f(front[i]) == 0;
    Sorting.SumByZero(front, f);
    assert forall i :: 0 <= i < |back| ==> 0 <= f(back[i]) <= 1;
    Sorting.SumByAtMostLength(back, f);
  }

  lemma {:induction false} SumConstant(xs: seq<real>, c: real)
    requires forall i :: 0 <= i < |xs| ==> xs[i] == c
    ensures Sum(xs) == |xs| as real * c
  {
    if |xs| > 0 {
      SumConstant(xs[1..], c);
    }
  }

  lemma {:induction false} SquaredDeviationZero(xs: seq<real>, mu: real)
    ensures SquaredDeviation(xs, mu) == 0.0 <==> forall i :: 0 <= i < |xs| ==> xs[i] == mu
  {
    if |xs| > 0 {
      var rest := xs[1..];
      SquaredDeviationZero(rest, mu);
      SquareSign(xs[0] - mu);
      assert SquaredDeviation(xs, mu) == Square(xs[0] - mu) + SquaredDeviation(rest, mu);
      if forall i :: 0 <= i < |xs| ==> xs[i] == mu {
        assert forall i :: 0 <= i < |rest| ==> rest[i] == xs[i + 1];
      }
      if SquaredDeviation(xs, mu) == 0.0 {
        assert xs[0] - mu == 0.0;
        assert forall i :: 1 <= i < |xs| ==> xs[i] == rest[i - 1];
      }
    }
  }

  /** The variance is zero exactly when all values are equal. */
  lemma VarianceZeroIffConstant(xs: seq<real>)
    requires |xs| > 0
    ensures Variance(xs) == 0.0 <==> forall i :: 0 <= i < |xs| ==> xs[i] == xs[0]
  {
    var n := |xs| as real;
    var mu := Mean(xs);
    SquaredDeviationZero(xs, mu);
    if forall i :: 0 <= i < |xs| ==> xs[i] == xs[0] {
      SumConstant(xs, xs[0]);
      assert mu * n == n * xs[0];
      assert mu == xs[0];
    }
    if Variance(xs) == 0.0 {
      assert SquaredDeviation(xs, mu) == 0.0;
    }
  }
}

=== FILE: word_rows.dfy ===
/**
 The rows of `word_cloud_data` as lodash builds them from the `countBy`
 object (src/analysis.js:75-78). lodash's collection methods iterate an
 object whose `length` property is a valid array length as if it were an
 array, by index from 0 to `length - 1`; any other object is iterated by its
 own keys. The count object has a `length` property exactly when "length" is
 a title token, and then `.map((value, name) => ({ name, value }))` yields
 rows named by index whose value is the count stored under that index's
 numeral, usually `undefined`.
 */
module WordRows {
  import opened Wrappers
  import Sorting
  import opened Metrics
  import opened Words

  /** The `name` of a row: a key of the count object, or an array index. */
  datatype RowName = Key(word: string) | Index(index: nat)

  /** A row `{ name, value }`, with `None` for an `undefined` value. */
  datatype Row = Row(name: RowName, value: Option<int>)

  const LengthKey: string := "length"

  /** `Number.MAX_SAFE_INTEGER`, the largest length lodash's `isLength` accepts. */
  const MaxSafeInteger: int := 0x1F_FFFF_FFFF_FFFF

  function DigitChar(d: nat): char
    requires d < 10
  {
    ('0' as int + d) as char
  }

  function DigitValue(c: char): int {
    c as int - '0' as int
  }

  /** The value of a string of decimal digits. */
  function DigitsValue(s: string): int {
    if |s| == 0 then 0 else 10 * DigitsValue(s[..|s| - 1]) + DigitValue(s[|s| - 1])
  }

  /** The decimal numeral of `n` without leading zeros: the property key an
      index `n` reads (`collection[n]`). */
  function Numeral(n: nat): (s: string)
    ensures |s| > 0 && (|s| > 1 ==> s[0] != '0')
    ensures forall k :: 0 <= k < |s| ==> '0' <= s[k] <= '9'
  {
    if n < 10 then [DigitChar(n)] else Numeral(n / 10) + [DigitChar(n % 10)]
  }

  /** Reading the numeral back gives the index. */
  lemma {:induction false} NumeralValue(n: nat)
    ensures DigitsValue(Numeral(n)) == n
  {
    if n >= 10 {
      NumeralValue(n / 10);
      var s := Numeral(n);
      assert s[..|s| - 1] == Numeral(n / 10);
    }
  }

  /** `counts[key]`: the count stored under `key`, or `undefined`. */
  function Lookup(es: seq<WordEntry>, key: string): (v: Option<int>)
    ensures v.None? <==> key !in EntryNames(es)
    ensures v.Some? ==> exists k :: 0 <= k < |es| && es[k] == WordEntry(key, v.value)
  {
    var i := IndexOfName(es, key);
    if i < 0 then None
    else
      assert EntryNames(es)[i] == key && es[i] == WordEntry(key, es[i].value);
      Some(es[i].value)
  }

  /** lodash's `isArrayLike` on the count object: its `length` property is an
      integer from 0 to `Number.MAX_SAFE_INTEGER`. */
  predicate ArrayLike(es: seq<WordEntry>): (b: bool)
    ensures b ==> exists k :: 0 <= k < |es| && es[k].name == LengthKey && 0 <= es[k].value <= MaxSafeInteger
    ensures Sorting.KeysDistinct(es, NameOf) && (exists k :: 0 <= k < |es| && es[k].name == LengthKey && 0 <= es[k].value <= MaxSafeInteger) ==> b
  {
    var n := Lookup(es, LengthKey);
    assert Sorting.KeysDistinct(es, NameOf) && (exists k :: 0 <= k < |es| && es[k].name == LengthKey && 0 <= es[k].value <= MaxSafeInteger) ==>
      n.Some? && 0 <= n.value <= MaxSafeInteger by {
      if Sorting.KeysDistinct(es, NameOf) && exists k :: 0 <= k < |es| && es[k].name == LengthKey && 0 <= es[k].value <= MaxSafeInteger {
        var k :| 0 <= k < |es| && es[k].name == LengthKey && 0 <= es[k].value <= MaxSafeInteger;
        LookupDistinct(es, k);
      }
    }
    n.Some? && 0 <= n.value <= MaxSafeInteger
  }

  /** With distinct keys, reading the name of entry `k` gives that entry's count. */
  lemma LookupDistinct(es: seq<WordEntry>, k: nat)
    requires Sorting.KeysDistinct(es, NameOf) && k < |es|
    ensures Lookup(es, es[k].name) == Some(es[k].value)
  {
    assert EntryNames(es)[k] == es[k].name;
    var j :| 0 <= j < |es| && es[j] == WordEntry(es[k].name, Lookup(es, es[k].name).value);
    assert NameOf(es[j]) == NameOf(es[k]);
  }

  function KeyRow(e: WordEntry): Row {
    Row(Key(e.name), Some(e.value))
  }

  function IndexRow(es: seq<WordEntry>, i: nat): Row {
    Row(Index(i), Lookup(es, Numeral(i)))
  }

  /** `.map((value, name) => ({ name, value }))` over the count object:
      index rows when it is array-like, one row per key otherwise. */
  function MapCounts(es: seq<WordEntry>): (rows: seq<Row>)
    ensures !ArrayLike(es) ==> |rows| == |es|
    ensures !ArrayLike(es) ==> forall k :: 0 <= k < |es| ==> rows[k].name == Key(es[k].name)
    ensures ArrayLike(es) ==> |rows| == Lookup(es, LengthKey).value
    ensures ArrayLike(es) ==> forall i :: 0 <= i < |rows| ==> rows[i].name == Index(i)
    ensures !ArrayLike(es) ==> forall k :: 0 <= k < |es| ==> rows[k].value == Some(es[k].value)
    ensures ArrayLike(es) ==> forall i :: 0 <= i < |rows| ==> rows[i].value == Lookup(es, Numeral(i))
  {
    if ArrayLike(es) then
      seq(Lookup(es, LengthKey).value, i requires 0 <= i => IndexRow(es, i))
    else Sorting.Map(es, KeyRow)
  }

  /** `orderBy(['value'], ['desc'])` on rows. lodash's ascending comparison
      places `undefined` after every number, so the descending order places
      it first; numbers come largest first. */
  predicate ValueDesc(x: Row, y: Row): (b: bool)
    ensures x.value.None? ==> b
    ensures x.value.Some? && y.value.None? ==> !b
    ensures x.value.Some? && y.value.Some? ==> (b <==> x.value.value >= y.value.value)
  {
    x.value.None? || (y.value.Some? && x.value.value >= y.value.value)
  }

  /** `.map(...).orderBy(['value'], ['desc']).take(50)` applied to the count
      object `counts`. */
  function RowsAsWritten(counts: seq<WordEntry>): (r: seq<Row>)
    ensures |r| <= WordLimit
    ensures forall i, j :: 0 <= i < j < |r| ==> ValueDesc(r[i], r[j])
    ensures |r| == if |MapCounts(counts)| <= WordLimit then |MapCounts(counts)| else WordLimit
    ensures multiset(r) <= multiset(MapCounts(counts))
    ensures forall x :: x in multiset(MapCounts(counts)) - multiset(r) ==>
      forall k :: 0 <= k < |r| ==> ValueDesc(r[k], x)
  {
    assert Sorting.TotalPreorder(ValueDesc);
    var s := Sorting.Sort(MapCounts(counts), ValueDesc);
    CutKeepsBest(s, ValueDesc);
    Cut(s)
  }

  /** `word_cloud_data` as lines 72-79 compute it under lodash. */
  function WordTableAsWritten(ds: seq<DerivedVideo>): (r: seq<Row>)
    ensures |r| <= WordLimit
  {
    RowsAsWritten(CountWords(TitleWords(ds)))
  }

  lemma {:induction false} OccurrencesAtMostLength(ws: seq<string>, w: string)
    ensures Occurrences(ws, w) <= |ws|
    ensures w in ws ==> Occurrences(ws, w) >= 1
  {
    if |ws| > 0 {
      OccurrencesAtMostLength(ws[..|ws| - 1], w);
      if w != ws[|ws| - 1] && w in ws {
        var k :| 0 <= k < |ws| && ws[k] == w;
        assert ws[..|ws| - 1][k] == w;
      }
    }
  }

  /** A count object without the key "length" gives the rows of the
      intended ordering and cut. */
  lemma RowsWithoutLengthKey(counts: seq<WordEntry>)
    requires LengthKey !in EntryNames(counts)
    ensures RowsAsWritten(counts) == Sorting.Map(Cut(Sorting.Sort(counts, ByValueDesc)), KeyRow)
  {
    assert MapCounts(counts) == Sorting.Map(counts, KeyRow);
    Sorting.SortMap(counts, ByValueDesc, KeyRow, ValueDesc);
    var full := Sorting.Sort(counts, ByValueDesc);
    if |full| > WordLimit {
      assert Sorting.Map(full, KeyRow)[..WordLimit] == Sorting.Map(full[..WordLimit], KeyRow);
    }
  }

  /** Without a title token "length" the rows are the intended table's rows,
      in the same order. */
  lemma AsWrittenAgreesWithoutLength(ds: seq<DerivedVideo>)
    requires !Qualifies(LengthKey, ds)
    ensures WordTableAsWritten(ds) == Sorting.Map(WordTable(ds), KeyRow)
  {
    var ws := TitleWords(ds);
    var counts := CountWords(ws);
    assert LengthKey !in EntryNames(counts) by {
      TitleWordsMembers(ds);
    }
    RowsWithoutLengthKey(counts);
  }

  /** A count of `ws` is array-like exactly when "length" is one of the
      words, as long as `ws` is no longer than the largest safe integer. */
  lemma CountsArrayLike(ws: seq<string>)
    requires |ws| <= MaxSafeInteger
    ensures ArrayLike(CountWords(ws)) <==> LengthKey in ws
    ensures LengthKey in ws ==> Lookup(CountWords(ws), LengthKey).value == Occurrences(ws, LengthKey) >= 1
  {
    var counts := CountWords(ws);
    OccurrencesAtMostLength(ws, LengthKey);
    if LengthKey in ws {
      var k :| 0 <= k < |counts| && counts[k] == WordEntry(LengthKey, Lookup(counts, LengthKey).value);
      assert Lookup(counts, LengthKey).value == Occurrences(ws, LengthKey);
    }
  }

  /** An array-like count object with a positive length gives only index
      rows, and at least one. */
  lemma RowsWithLengthKey(counts: seq<WordEntry>)
    requires ArrayLike(counts) && Lookup(counts, LengthKey).value >= 1
    ensures |RowsAsWritten(counts)| > 0
    ensures forall k :: 0 <= k < |RowsAsWritten(counts)| ==> RowsAsWritten(counts)[k].name.Index?
  {
    var rows := MapCounts(counts);
    var sorted := Sorting.Sort(rows, ValueDesc);
    forall j | 0 <= j < |sorted|
      ensures sorted[j].name.Index?
    {
      assert sorted[j] in multiset(rows);
    }
    var r := Cut(sorted);
    forall k | 0 <= k < |r|
      ensures r[k].name.Index?
    {
      assert r[k] == sorted[k];
    }
  }

  /** With a title token "length" no row of the table names a word: every
      row is an index row, and there is at least one. The precondition holds
      of every JavaScript array, which has fewer than 2^32 elements. */
  lemma LengthTokenLeavesNoWord(ds: seq<DerivedVideo>)
    requires Qualifies(LengthKey, ds)
    requires |TitleWords(ds)| <= MaxSafeInteger
    ensures |WordTableAsWritten(ds)| > 0
    ensures forall k :: 0 <= k < |WordTableAsWritten(ds)| ==> WordTableAsWritten(ds)[k].name.Index?
  {
    var ws := TitleWords(ds);
    assert LengthKey in ws by {
      TitleWordsMembers(ds);
    }
    CountsArrayLike(ws);
    RowsWithLengthKey(CountWords(ws));
  }

  /** One video titled "length 测试": the intended table lists both words
      once, the table as written is a single row named 0 with an undefined
      value. */
  lemma LengthTitleExample(d: DerivedVideo)
    requires d.raw.title == "length 测试"
    ensures WordTableAsWritten([d]) == [Row(Index(0), None)]
    ensures WordTable([d]) == [WordEntry("length", 1), WordEntry("测试", 1)]
  {
    ExampleTitleCounts(d);
    ExampleIntended(d);
    ExampleAsWritten(d);
  }

  lemma ExampleIntended(d: DerivedVideo)
    requires CountWords(TitleWords([d])) == [WordEntry("length", 1), WordEntry("测试", 1)]
    ensures WordTable([d]) == [WordEntry("length", 1), WordEntry("测试", 1)]
  {
    var ws := TitleWords([d]);
    ExampleRanked();
    assert RankedWords(ws) == [WordEntry("length", 1), WordEntry("测试", 1)];
  }

  lemma ExampleRanked()
    ensures var counts := [WordEntry("length", 1), WordEntry("测试", 1)];
      Sorting.Sort(counts, ByValueDesc) == counts
  {
    var counts := [WordEntry("length", 1), WordEntry("测试", 1)];
    assert Sorting.Sort(counts[1..], ByValueDesc) == counts[1..];
  }

  lemma ExampleAsWritten(d: DerivedVideo)
    requires CountWords(TitleWords([d])) == [WordEntry("length", 1), WordEntry("测试", 1)]
    ensures WordTableAsWritten([d]) == [Row(Index(0), None)]
  {
    ExampleRows();
  }

  lemma ExampleTitleCounts(d: DerivedVideo)
    requires d.raw.title == "length 测试"
    ensures CountWords(TitleWords([d])) == [WordEntry("length", 1), WordEntry("测试", 1)]
  {
    ExampleWords(d);
    assert [d][1..] == [];
    ExampleCounts();
  }

  lemma ExampleWords(d: DerivedVideo)
    requires d.raw.title == "length 测试"
    ensures TitleTokens(d) == ["length", "测试"]
  {
    var words := ["length", "测试"];
    assert Join(words, ' ') == "length 测试";
    assert AllWordChars("length") && AllWordChars("测试");
    TokensOfJoin(words, ' ');
    assert LongTokens(words[1..][1..]) == [];
    assert LongTokens(words[1..]) == words[1..];
    assert LongTokens(words) == words;
  }

  lemma ExampleCounts()
    ensures CountWords(["length", "测试"]) == [WordEntry("length", 1), WordEntry("测试", 1)]
  {
    var words := ["length", "测试"];
    assert words[..1] == ["length"];
    ExampleFirstCount();
    assert "length"[0] != "测试"[0];
    assert IndexOfName([WordEntry("length", 1)], "测试") == -1;
  }

  lemma ExampleFirstCount()
    ensures CountWords(["length"]) == [WordEntry("length", 1)]
  {
    assert ["length"][..0] == [];
    assert AddWord([], "length") == [WordEntry("length", 1)];
  }

  /** The count object of the example is array-like with length 1; index 0
      reads the property "0", which it does not have. */
  lemma ExampleRows()
    ensures RowsAsWritten([WordEntry("length", 1), WordEntry("测试", 1)]) == [Row(Index(0), None)]
  {
    var counts := [WordEntry("length", 1), WordEntry("测试", 1)];
    assert Lookup(counts, LengthKey) == Some(1);
    assert Numeral(0) == "0";
    assert "0" != "length" && "0" != "测试";
    assert IndexOfName(counts[1..], "0") == -1;
    assert Lookup(counts, "0") == None;
    assert MapCounts(counts) == [Row(Index(0), None)];
  }
}

=== FILE: words.dfy ===
/**
 The title word-frequency table (`word_cloud_data` in `performAnalysis`,
 src/analysis.js): titles are split into maximal runs of the characters
 U+4E00..U+9FA5, A..Z, a..z and 0..9 (the global regular expression
 `[一-龥a-zA-Z0-9]+`), runs of one character are dropped, the rest
 are counted with `countBy`, ordered by count descending and cut to 50.
 */
module Words {
  import Sorting
  import opened Metrics

  /** A character of the regular expression's class. All of them lie in the
      Basic Multilingual Plane, so a JavaScript string length over a run is
      its number of characters. */
  predicate IsWordChar(c: char): (b: bool)
    ensures b <==> 0x4E00 <= c as int <= 0x9FA5 || 0x61 <= c as int <= 0x7A || 0x41 <= c as int <= 0x5A || 0x30 <= c as int <= 0x39
  {
    || ('\U{4E00}' <= c <= '\U{9FA5}')
    || ('a' <= c <= 'z')
    || ('A' <= c <= 'Z')
    || ('0' <= c <= '9')
  }

  ghost predicate AllWordChars(s: string) {
    forall i :: 0 <= i < |s| ==> IsWordChar(s[i])
  }

  /** `s[i..j]` is a run of word characters that cannot be extended on
      either side: what one match of the global expression returns. */
  ghost predicate IsMaximalRun(s: string, i: int, j: int) {
    && 0 <= i < j <= |s|
    && (forall k :: i <= k < j ==> IsWordChar(s[k]))
    && (i == 0 || !IsWordChar(s[i - 1]))
    && (j == |s| || !IsWordChar(s[j]))
  }

  ghost predicate OccursAsMaximalRun(t: string, s: string) {
    exists i, j :: IsMaximalRun(s, i, j) && s[i..j] == t
  }

  /** Length of the longest prefix of word characters. */
  function RunLength(s: string): (n: nat)
    ensures n <= |s|
    ensures forall i :: 0 <= i < n ==> IsWordChar(s[i])
    ensures n < |s| ==> !IsWordChar(s[n])
  {
    if |s| == 0 || !IsWordChar(s[0]) then 0 else 1 + RunLength(s[1..])
  }

  /** `title.match(/[一-龥a-zA-Z0-9]+/g)`, with "no match" (`null`,
      which the later filter discards) as the empty list. */
  function Tokens(s: string): seq<string>
    decreases |s|
  {
    if |s| == 0 then []
    else if !IsWordChar(s[0]) then Tokens(s[1..])
    else
      var n := RunLength(s);
      [s[..n]] + Tokens(s[n..])
  }

  /** Every token is a non-empty run of word characters, and there are no
      tokens exactly when the title has no word character. */
  lemma {:induction false} TokensShape(s: string)
    ensures forall k :: 0 <= k < |Tokens(s)| ==> |Tokens(s)[k]| > 0 && AllWordChars(Tokens(s)[k])
    ensures Tokens(s) == [] <==> forall i :: 0 <= i < |s| ==> !IsWordChar(s[i])
    decreases |s|
  {
    if |s| > 0 {
      if !IsWordChar(s[0]) {
        TokensShape(s[1..]);
        assert forall i :: 1 <= i < |s| ==> s[i] == s[1..][i - 1];
      } else {
        var n := RunLength(s);
        TokensShape(s[n..]);
        assert Tokens(s) == [s[..n]] + Tokens(s[n..]);
        assert Tokens(s)[0] == s[..n];
        assert forall k :: 1 <= k < |Tokens(s)| ==> Tokens(s)[k] == Tokens(s[n..])[k - 1];
      }
    }
  }

  lemma {:induction false} RunLengthStops(a: string, rest: string)
    requires |rest| > 0 && !IsWordChar(rest[0])
    ensures RunLength(a + rest) == RunLength(a)
  {
    if |a| > 0 && IsWordChar(a[0]) {
      assert (a + rest)[1..] == a[1..] + rest;
      RunLengthStops(a[1..], rest);
    } else if |a| == 0 {
      assert a + rest == rest;
    }
  }

  /** A separator character splits the token list. */
  lemma {:induction false} TokensSplit(a: string, c: char, b: string)
    requires !IsWordChar(c)
    ensures Tokens(a + [c] + b) == Tokens(a) + Tokens(b)
    decreases |a|
  {
    var s := a + [c] + b;
    if |a| == 0 {
      assert s == [c] + b;
      assert s[1..] == b;
    } else if !IsWordChar(a[0]) {
      assert s[0] == a[0];
      assert s[1..] == a[1..] + [c] + b;
      TokensSplit(a[1..], c, b);
    } else {
      var n := RunLength(a);
      var t := [c] + b;
      TokensSplit(a[n..], c, b);
      assert a[n..] + [c] + b == a[n..] + t;
      assert a + [c] + b == a + t;
      assert t[1..] == b;
      SplitAfterLeadingRun(a, t);
    }
  }

  /** The step of `TokensSplit` when `a` starts with a run of word
      characters and `t` with a separator, given the split of what follows
      the run. */
  lemma SplitAfterLeadingRun(a: string, t: string)
    requires |a| > 0 && IsWordChar(a[0])
    requires |t| > 0 && !IsWordChar(t[0])
    requires Tokens(a[RunLength(a)..] + t) == Tokens(a[RunLength(a)..]) + Tokens(t[1..])
    ensures Tokens(a + t) == Tokens(a) + Tokens(t[1..])
  {
    var n := RunLength(a);
    FrontRunOfConcat(a, t);
    TokensOfLeadingRun(a);
    ConcatAssoc([a[..n]], Tokens(a[n..]), Tokens(t[1..]));
  }

  lemma FrontRunOfConcat(a: string, t: string)
    requires |a| > 0 && IsWordChar(a[0])
    requires |t| > 0 && !IsWordChar(t[0])
    ensures Tokens(a + t) == [a[..RunLength(a)]] + Tokens(a[RunLength(a)..] + t)
  {
    LeadingRunOfConcat(a, t);
    TokensOfLeadingRun(a + t);
  }

  lemma ConcatAssoc<T>(x: seq<T>, y: seq<T>, z: seq<T>)
    ensures x + (y + z) == (x + y) + z
  {
  }

  /** A run at the front of `a` stays the front run of `a + t` when `t`
      starts with a separator. */
  lemma LeadingRunOfConcat(a: string, t: string)
    requires |a| > 0 && IsWordChar(a[0])
    requires |t| > 0 && !IsWordChar(t[0])
    ensures (a + t)[0] == a[0]
    ensures RunLength(a + t) == RunLength(a)
    ensures (a + t)[..RunLength(a)] == a[..RunLength(a)]
    ensures (a + t)[RunLength(a)..] == a[RunLength(a)..] + t
  {
    RunLengthStops(a, t);
    SlicesOfConcat(a, t, RunLength(a));
  }

  lemma SlicesOfConcat<T>(a: seq<T>, t: seq<T>, n: nat)
    requires n <= |a|
    ensures (a + t)[..n] == a[..n]
    ensures (a + t)[n..] == a[n..] + t
  {
  }

  /** `Tokens` of a title that starts with a word character. */
  lemma TokensOfLeadingRun(s: string)
    requires |s| > 0 && IsWordChar(s[0])
    ensures Tokens(s) == [s[..RunLength(s)]] + Tokens(s[RunLength(s)..])
  {
  }

  lemma TokensOfRun(w: string)
    requires |w| > 0 && AllWordChars(w)
    ensures Tokens(w) == [w]
  {
    var n := RunLength(w);
    assert n == |w|;
    assert w[n..] == [];
    assert w[..n] == w;
  }

  /** The words of `ws` separated by the character `sep`. */
  function Join(ws: seq<string>, sep: char): string {
    if |ws| == 0 then ""
    else if |ws| == 1 then ws[0]
    else ws[0] + [sep] + Join(ws[1..], sep)
  }

  /** Tokenizing undoes joining runs with a separator. */
  lemma {:induction false} TokensOfJoin(ws: seq<string>, sep: char)
    requires !IsWordChar(sep)
    requires forall k :: 0 <= k < |ws| ==> |ws[k]| > 0 && AllWordChars(ws[k])
    ensures Tokens(Join(ws, sep)) == ws
  {
    if |ws| == 1 {
      TokensOfRun(ws[0]);
    } else if |ws| > 1 {
      TokensSplit(ws[0], sep, Join(ws[1..], sep));
      TokensOfRun(ws[0]);
      TokensOfJoin(ws[1..], sep);
      assert ws == [ws[0]] + ws[1..];
    }
  }

  lemma RunInSuffix(s: string, m: nat, i: int, j: int)
    requires 0 < m <= |s|
    requires IsMaximalRun(s[m..], i, j)
    requires i > 0 || !IsWordChar(s[m - 1])
    ensures IsMaximalRun(s, i + m, j + m) && s[i + m..j + m] == s[m..][i..j]
  {
  }

  /** Every token is a maximal run of word characters of the title. */
  lemma {:induction false} TokensAreMaximalRuns(s: string)
    ensures forall k :: 0 <= k < |Tokens(s)| ==> OccursAsMaximalRun(Tokens(s)[k], s)
    decreases |s|
  {
    if |s| > 0 {
      if !IsWordChar(s[0]) {
        var t := s[1..];
        TokensAreMaximalRuns(t);
        assert Tokens(s) == Tokens(t);
        forall k | 0 <= k < |Tokens(s)|
          ensures OccursAsMaximalRun(Tokens(s)[k], s)
        {
          assert OccursAsMaximalRun(Tokens(t)[k], t);
          var i, j :| IsMaximalRun(t, i, j) && t[i..j] == Tokens(t)[k];
          RunInSuffix(s, 1, i, j);
        }
      } else {
        var n := RunLength(s);
        var t := s[n..];
        TokensAreMaximalRuns(t);
        assert Tokens(s) == [s[..n]] + Tokens(t);
        assert IsMaximalRun(s, 0, n) && s[0..n] == s[..n];
        forall k | 0 <= k < |Tokens(s)|
          ensures OccursAsMaximalRun(Tokens(s)[k], s)
        {
          if k > 0 {
            assert Tokens(s)[k] == Tokens(t)[k - 1];
            assert OccursAsMaximalRun(Tokens(t)[k - 1], t);
            assert |t| > 0 && t[0] == s[n] && !IsWordChar(t[0]);
            var i, j :| IsMaximalRun(t, i, j) && t[i..j] == Tokens(t)[k - 1];
            RunInSuffix(s, n, i, j);
          }
        }
      }
    }
  }

  /** Every maximal run of word characters of the title is a token. */
  lemma MaximalRunIsToken(s: string, i: int, j: int)
    requires IsMaximalRun(s, i, j)
    ensures s[i..j] in Tokens(s)
  {
    if i == 0 {
      LeadingRunIsToken(s, j);
    } else {
      InnerRunIsToken(s, i, j);
      SplitAfterSeparator(s, i);
    }
  }

  lemma InnerRunIsToken(s: string, i: int, j: int)
    requires 0 < i && IsMaximalRun(s, i, j)
    ensures s[i..j] in Tokens(s[i..])
  {
    RunInPrefixOfSuffix(s, i, j);
    LeadingRunIsToken(s[i..], j - i);
    assert s[i..][0..j - i] == s[i..j];
  }

  lemma SplitAfterSeparator(s: string, i: int)
    requires 0 < i <= |s| && !IsWordChar(s[i - 1])
    ensures Tokens(s) == Tokens(s[..i - 1]) + Tokens(s[i..])
  {
    assert s == s[..i - 1] + [s[i - 1]] + s[i..];
    TokensSplit(s[..i - 1], s[i - 1], s[i..]);
  }

  lemma LeadingRunIsToken(s: string, j: int)
    requires IsMaximalRun(s, 0, j)
    ensures s[0..j] in Tokens(s)
  {
  }

  lemma RunInPrefixOfSuffix(s: string, i: int, j: int)
    requires 0 < i && IsMaximalRun(s, i, j)
    ensures IsMaximalRun(s[i..], 0, j - i)
  {
  }

  /** `.filter(word => word && word.length > 1)` over one title's tokens. */
  function LongTokens(ts: seq<string>): (r: seq<string>)
    ensures forall w :: w in r <==> w in ts && |w| > 1
    ensures forall w :: Occurrences(r, w) == if |w| > 1 then Occurrences(ts, w) else 0
  {
    if |ts| == 0 then []
    else
      var rest := LongTokens(ts[1..]);
      assert ts == [ts[0]] + ts[1..];
      OccurrencesCons(ts[0], ts[1..]);
      if |ts[0]| > 1 then
        OccurrencesCons(ts[0], rest);
        [ts[0]] + rest
      else rest
  }

  /** `w` is a token of at least two characters of some title. */
  ghost predicate Qualifies(w: string, ds: seq<DerivedVideo>) {
    |w| > 1 && exists i :: 0 <= i < |ds| && w in Tokens(ds[i].raw.title)
  }

  /** The kept tokens of one title. */
  function TitleTokens(d: DerivedVideo): (r: seq<string>)
    ensures forall w :: w in r <==> w in Tokens(d.raw.title) && |w| > 1
  {
    LongTokens(Tokens(d.raw.title))
  }

  /** The kept tokens of every title, titles in input order
      (`flatMap` followed by the filter). */
  function TitleWords(ds: seq<DerivedVideo>): (r: seq<string>)
    ensures forall k :: 0 <= k < |r| ==> |r[k]| > 1
  {
    if |ds| == 0 then [] else TitleTokens(ds[0]) + TitleWords(ds[1..])
  }

  /** The words counted are exactly the qualifying tokens. */
  lemma {:induction false} TitleWordsMembers(ds: seq<DerivedVideo>)
    ensures forall w :: w in TitleWords(ds) <==> Qualifies(w, ds)
  {
    if |ds| > 0 {
      var rest := ds[1..];
      TitleWordsMembers(rest);
      assert TitleWords(ds) == TitleTokens(ds[0]) + TitleWords(rest);
      forall w
        ensures w in TitleWords(ds) <==> Qualifies(w, ds)
      {
        if Qualifies(w, ds) {
          var i :| 0 <= i < |ds| && w in Tokens(ds[i].raw.title);
          if i > 0 {
            assert rest[i - 1] == ds[i];
            assert Qualifies(w, rest);
          } else {
            assert w in TitleTokens(ds[0]);
          }
        }
        if w in TitleWords(rest) {
          var i :| 0 <= i < |rest| && w in Tokens(rest[i].raw.title);
          assert rest[i] == ds[i + 1];
        }
      }
    }
  }

  lemma {:induction false} TitleWordsAppend(a: seq<DerivedVideo>, b: seq<DerivedVideo>)
    ensures TitleWords(a + b) == TitleWords(a) + TitleWords(b)
  {
    if |a| == 0 {
      assert a + b == b;
    } else {
      assert (a + b)[0] == a[0];
      assert (a + b)[1..] == a[1..] + b;
      assert TitleWords(a + b) == TitleTokens(a[0]) + TitleWords(a[1..] + b);
      TitleWordsAppend(a[1..], b);
    }
  }

  /** Number of times `w` occurs in `ws`. */
  function Occurrences(ws: seq<string>, w: string): nat {
    if |ws| == 0 then 0
    else Occurrences(ws[..|ws| - 1], w) + (if ws[|ws| - 1] == w then 1 else 0)
  }

  lemma {:induction false} OccurrencesAppend(a: seq<string>, b: seq<string>, w: string)
    ensures Occurrences(a + b, w) == Occurrences(a, w) + Occurrences(b, w)
  {
    if |b| == 0 {
      assert a + b == a;
    } else {
      assert (a + b)[..|a + b| - 1] == a + b[..|b| - 1];
      OccurrencesAppend(a, b[..|b| - 1], w);
    }
  }

  lemma OccurrencesCons(x: string, ys: seq<string>)
    ensures forall w :: Occurrences([x] + ys, w) == (if x == w then 1 else 0) + Occurrences(ys, w)
  {
    forall w
      ensures Occurrences([x] + ys, w) == (if x == w then 1 else 0) + Occurrences(ys, w)
    {
      OccurrencesAppend([x], ys, w);
      assert [x][..0] == [];
    }
  }

  /** Number of times `w` is a token of some title, summed title by title. */
  function TokenCount(ds: seq<DerivedVideo>, w: string): nat {
    if |ds| == 0 then 0 else Occurrences(Tokens(ds[0].raw.title), w) + TokenCount(ds[1..], w)
  }

  /** The number of times a word is counted is its number of occurrences as
      a token, summed over the titles; words of one character are never
      counted. */
  lemma {:induction false} TitleWordsOccurrences(ds: seq<DerivedVideo>, w: string)
    ensures Occurrences(TitleWords(ds), w) == if |w| > 1 then TokenCount(ds, w) else 0
  {
    if |ds| > 0 {
      TitleWordsOccurrences(ds[1..], w);
      OccurrencesAppend(TitleTokens(ds[0]), TitleWords(ds[1..]), w);
    }
  }

  /** One row of `word_cloud_data`. */
  datatype WordEntry = WordEntry(name: string, value: int)

  function NameOf(e: WordEntry): string {
    e.name
  }

  function EntryNames(es: seq<WordEntry>): (ns: seq<string>)
    ensures |ns| == |es|
  {
    seq(|es|, k requires 0 <= k < |es| => es[k].name)
  }

  /** What a count of `ws` must satisfy: one row per distinct word of `ws`
      and no other, each carrying the word's number of occurrences. */
  ghost predicate CountsOf(es: seq<WordEntry>, ws: seq<string>) {
    && Sorting.KeysDistinct(es, NameOf)
    && (forall k :: 0 <= k < |es| ==> es[k].value == Occurrences(ws, es[k].name))
    && (forall w :: w in EntryNames(es) <==> w in ws)
  }

  /** Position of the row of word `w`, or -1 when there is none. */
  function IndexOfName(es: seq<WordEntry>, w: string): (i: int)
    ensures -1 <= i < |es|
    ensures i >= 0 ==> es[i].name == w
    ensures i < 0 ==> w !in EntryNames(es)
  {
    if |es| == 0 then -1
    else if es[0].name == w then 0
    else
      var j := IndexOfName(es[1..], w);
      assert EntryNames(es) == [es[0].name] + EntryNames(es[1..]);
      if j < 0 then -1 else j + 1
  }

  /** One step of `countBy`. */
  function AddWord(es: seq<WordEntry>, w: string): (r: seq<WordEntry>)
    ensures |es| <= |r| <= |es| + 1
    ensures w in EntryNames(r)
    ensures forall k :: 0 <= k < |es| && es[k].name != w ==> r[k] == es[k]
  {
    var i := IndexOfName(es, w);
    var r := if i < 0 then es + [WordEntry(w, 1)] else es[i := WordEntry(w, es[i].value + 1)];
    assert EntryNames(r)[if i < 0 then |es| else i] == w;
    r
  }

  /** `.countBy().map((value, name) => ({ name, value }))`, rows in
      first-seen order. */
  function CountWords(ws: seq<string>): (es: seq<WordEntry>)
    ensures CountsOf(es, ws)
  {
    if |ws| == 0 then []
    else
      var prev := CountWords(ws[..|ws| - 1]);
      AddWordKeepsCounts(prev, ws[..|ws| - 1], ws[|ws| - 1]);
      assert ws[..|ws| - 1] + [ws[|ws| - 1]] == ws;
      AddWord(prev, ws[|ws| - 1])
  }

  lemma {:induction false} AbsentWordOccursNever(ws: seq<string>, w: string)
    requires w !in ws
    ensures Occurrences(ws, w) == 0
  {
    if |ws| > 0 {
      AbsentWordOccursNever(ws[..|ws| - 1], w);
    }
  }

  lemma AddWordKeepsCounts(es: seq<WordEntry>, ws: seq<string>, w: string)
    requires CountsOf(es, ws)
    ensures CountsOf(AddWord(es, w), ws + [w])
  {
    var ws' := ws + [w];
    var i := IndexOfName(es, w);
    var es' := AddWord(es, w);
    assert ws'[..|ws'| - 1] == ws;
    assert forall v :: Occurrences(ws', v) == Occurrences(ws, v) + (if v == w then 1 else 0);
    forall v
      ensures v in ws' <==> v in ws || v == w
    {
    }
    if i < 0 {
      AbsentWordOccursNever(ws, w);
      assert EntryNames(es') == EntryNames(es) + [w];
      forall k | 0 <= k < |es|
        ensures es[k].name != w
      {
        assert EntryNames(es)[k] == es[k].name;
      }
    } else {
      assert EntryNames(es') == EntryNames(es);
      assert EntryNames(es)[i] == w;
    }
  }

  /** The table is cut to this many rows (`take(50)`). */
  const WordLimit: nat := 50

  /** `orderBy(['value'], ['desc'])`. */
  function ByValueDesc(x: WordEntry, y: WordEntry): bool {
    x.value >= y.value
  }

  /** The whole count ordered by count descending, before the cut. */
  function RankedWords(ws: seq<string>): (full: seq<WordEntry>)
    ensures CountsOf(full, ws)
    ensures forall i, j :: 0 <= i < j < |full| ==> full[i].value >= full[j].value
  {
    var counts := CountWords(ws);
    assert Sorting.TotalPreorder(ByValueDesc);
    var full := Sorting.Sort(counts, ByValueDesc);
    Sorting.SortKeepsKeysDistinct(counts, ByValueDesc, NameOf);
    PermutationKeepsCounts(counts, full, ws);
    full
  }

  lemma PermutationKeepsCounts(es: seq<WordEntry>, full: seq<WordEntry>, ws: seq<string>)
    requires CountsOf(es, ws)
    requires multiset(es) == multiset(full)
    requires Sorting.KeysDistinct(full, NameOf)
    ensures CountsOf(full, ws)
  {
    forall k | 0 <= k < |full|
      ensures full[k].name in ws && full[k].value == Occurrences(ws, full[k].name)
    {
      assert full[k] in multiset(es);
      var m :| 0 <= m < |es| && es[m] == full[k];
      assert EntryNames(es)[m] == full[k].name;
    }
    forall w | w in ws
      ensures w in EntryNames(full)
    {
      var m :| 0 <= m < |es| && EntryNames(es)[m] == w;
      assert es[m] in multiset(full);
      var p :| 0 <= p < |full| && full[p] == es[m];
      assert EntryNames(full)[p] == w;
    }
    forall w | w in EntryNames(full)
      ensures w in ws
    {
      var p :| 0 <= p < |full| && EntryNames(full)[p] == w;
    }
  }

  /** The first 50 elements (`take(50)`). */
  function Cut<T>(s: seq<T>): (r: seq<T>)
    ensures |r| <= WordLimit && |r| <= |s| && r == s[..|r|]
    ensures |s| <= WordLimit ==> r == s
  {
    if |s| <= WordLimit then s else s[..WordLimit]
  }

  /** Cutting a sorted list keeps a sub-multiset of it, and every element
      cut off ranks no higher than any element kept. */
  lemma CutKeepsBest<T>(s: seq<T>, le: (T, T) -> bool)
    requires Sorting.SortedBy(s, le)
    ensures multiset(Cut(s)) <= multiset(s)
    ensures forall x :: x in multiset(s) - multiset(Cut(s)) ==> forall k :: 0 <= k < |Cut(s)| ==> le(Cut(s)[k], x)
  {
    var r := Cut(s);
    var rest := s[|r|..];
    assert s == r + rest;
    assert multiset(s) == multiset(r) + multiset(rest);
    forall x | x in multiset(s) - multiset(r)
      ensures forall k :: 0 <= k < |r| ==> le(r[k], x)
    {
      assert x in multiset(rest);
      var j :| 0 <= j < |rest| && rest[j] == x;
      assert s[|r| + j] == x;
    }
  }

  /** The ranked count of `ws` cut to its first 50 rows. */
  function TopWords(ws: seq<string>): (r: seq<WordEntry>)
    ensures |r| <= WordLimit
  {
    Cut(RankedWords(ws))
  }

  /** The cut keeps distinct words of `ws`, each with its exact count,
      in count order. */
  lemma TopWordsRows(ws: seq<string>)
    ensures Sorting.KeysDistinct(TopWords(ws), NameOf)
    ensures forall k :: 0 <= k < |TopWords(ws)| ==>
      TopWords(ws)[k].name in ws && TopWords(ws)[k].value == Occurrences(ws, TopWords(ws)[k].name)
    ensures forall i, j :: 0 <= i < j < |TopWords(ws)| ==> TopWords(ws)[i].value >= TopWords(ws)[j].value
  {
    var full := RankedWords(ws);
    var r := TopWords(ws);
    assert forall k :: 0 <= k < |r| ==> r[k] == full[k];
    forall k | 0 <= k < |r|
      ensures r[k].name in ws
    {
      assert EntryNames(full)[k] == r[k].name;
    }
  }

  /** A word of `ws` is cut only from a full table, and occurs no more often
      than any word kept. */
  lemma TopWordsLeftOut(ws: seq<string>, w: string)
    requires w in ws && w !in EntryNames(TopWords(ws))
    ensures |TopWords(ws)| == WordLimit
    ensures forall k :: 0 <= k < |TopWords(ws)| ==> Occurrences(ws, w) <= TopWords(ws)[k].value
  {
    var full := RankedWords(ws);
    var r := TopWords(ws);
    var p :| 0 <= p < |full| && EntryNames(full)[p] == w;
    assert forall q :: 0 <= q < |r| ==> EntryNames(r)[q] == EntryNames(full)[q];
    assert p >= |r|;
    assert |r| == WordLimit;
    forall k | 0 <= k < |r|
      ensures Occurrences(ws, w) <= r[k].value
    {
      assert r[k] == full[k];
      assert full[p].value == Occurrences(ws, w);
    }
  }

  /** `word_cloud_data`. */
  function WordTable(ds: seq<DerivedVideo>): (r: seq<WordEntry>)
    ensures |r| <= WordLimit
  {
    TopWords(TitleWords(ds))
  }

  /** `word_cloud_data` holds distinct qualifying tokens with their exact
      counts, ordered by count non-increasing, at most 50 rows; a qualifying
      token left out occurs no more often than any row kept, and is only
      left out when the table is full. The order among equal counts is left
      open. */
  lemma WordTableSpec(ds: seq<DerivedVideo>)
    ensures |WordTable(ds)| <= WordLimit
    ensures Sorting.KeysDistinct(WordTable(ds), NameOf)
    ensures forall k :: 0 <= k < |WordTable(ds)| ==>
      Qualifies(WordTable(ds)[k].name, ds) &&
      WordTable(ds)[k].value == Occurrences(TitleWords(ds), WordTable(ds)[k].name)
    ensures forall i, j :: 0 <= i < j < |WordTable(ds)| ==> WordTable(ds)[i].value >= WordTable(ds)[j].value
    ensures forall w :: Qualifies(w, ds) && w !in EntryNames(WordTable(ds)) ==>
      |WordTable(ds)| == WordLimit &&
      forall k :: 0 <= k < |WordTable(ds)| ==> Occurrences(TitleWords(ds), w) <= WordTable(ds)[k].value
  {
    var ws := TitleWords(ds);
    TitleWordsMembers(ds);
    TopWordsRows(ws);
    forall w | Qualifies(w, ds) && w !in EntryNames(WordTable(ds))
      ensures |WordTable(ds)| == WordLimit
      ensures forall k :: 0 <= k < |WordTable(ds)| ==> Occurrences(ws, w) <= WordTable(ds)[k].value
    {
      TopWordsLeftOut(ws, w);
    }
  }

  /** Every row's count is the number of times its word is a token of some
      title, summed over the titles. */
  lemma WordTableCounts(ds: seq<DerivedVideo>)
    ensures forall k :: 0 <= k < |WordTable(ds)| ==>
      WordTable(ds)[k].value == TokenCount(ds, WordTable(ds)[k].name)
  {
    WordTableSpec(ds);
    forall k | 0 <= k < |WordTable(ds)|
      ensures WordTable(ds)[k].value == TokenCount(ds, WordTable(ds)[k].name)
    {
      TitleWordsOccurrences(ds, WordTable(ds)[k].name);
    }
  }

  /** The table is empty exactly when no title has a run of two or more
      word characters. */
  lemma WordTableEmptyIff(ds: seq<DerivedVideo>)
    ensures WordTable(ds) == [] <==> forall w :: !Qualifies(w, ds)
  {
    var r := WordTable(ds);
    WordTableSpec(ds);
    if r != [] {
      assert Qualifies(r[0].name, ds);
    }
    if exists w :: Qualifies(w, ds) {
      var w :| Qualifies(w, ds);
      if w in EntryNames(r) {
        assert |r| > 0;
      } else {
        assert |r| == WordLimit;
      }
    }
  }

  /** A title without any run of word characters adds nothing: removing
      its video leaves the table unchanged. */
  lemma TitleWithoutRunsContributesNothing(ds: seq<DerivedVideo>, i: nat)
    requires i < |ds|
    requires forall k :: 0 <= k < |ds[i].raw.title| ==> !IsWordChar(ds[i].raw.title[k])
    ensures WordTable(ds[..i] + ds[i + 1..]) == WordTable(ds)
  {
    assert ds == ds[..i] + [ds[i]] + ds[i + 1..];
    TokensShape(ds[i].raw.title);
    SkipEmptyTitle(ds[..i], ds[i], ds[i + 1..]);
  }

  lemma SkipEmptyTitle(pre: seq<DerivedVideo>, d: DerivedVideo, post: seq<DerivedVideo>)
    requires Tokens(d.raw.title) == []
    ensures TitleWords(pre + [d] + post) == TitleWords(pre + post)
  {
    var before, after := TitleWords(pre), TitleWords(post);
    assert TitleTokens(d) == [];
    assert [d][1..] == [];
    assert TitleWords([d]) == [];
    TitleWordsAppend(pre, [d]);
    assert TitleWords(pre + [d]) == before;
    TitleWordsAppend(pre + [d], post);
    TitleWordsAppend(pre, post);
    assert TitleWords(pre + [d] + post) == before + after;
  }

  /** Every table row names a maximal run of some title. */
  lemma WordTableNamesAreRuns(ds: seq<DerivedVideo>)
    ensures forall k :: 0 <= k < |WordTable(ds)| ==>
      exists i :: 0 <= i < |ds| && OccursAsMaximalRun(WordTable(ds)[k].name, ds[i].raw.title)
  {
    var r := WordTable(ds);
    WordTableSpec(ds);
    forall k | 0 <= k < |r|
      ensures exists i :: 0 <= i < |ds| && OccursAsMaximalRun(r[k].name, ds[i].raw.title)
    {
      assert Qualifies(r[k].name, ds);
      var i :| 0 <= i < |ds| && r[k].name in Tokens(ds[i].raw.title);
      TokensAreMaximalRuns(ds[i].raw.title);
      var m :| 0 <= m < |Tokens(ds[i].raw.title)| && Tokens(ds[i].raw.title)[m] == r[k].name;
    }
  }
}

=== FILE: wrappers.dfy ===
/** Optional values: the model's stand-in for JavaScript's `null` / `undefined`. */
module Wrappers {

  datatype Option<+T> = None | Some(value: T)
}
